=== FILE: README.md ===
# Drill-down orchestration of the multi-agent diagnostic pipeline

This project models, in Dafny, the state machine at the heart of
`Python/iis-multiagent-deploy.py`. It answers a business question by
drilling from the global tier down to the correlation tier, one level at a
time. Seven nodes share one state record:

- the **thinker** drafts a blueprint of levels and steps;
- the **analyst** audits the blueprint while planning, and afterwards audits each executed level and writes its report;
- the **orchestrator** turns the current level's steps into work items with resolved target tables;
- the **act** node generates SQL for each work item and runs it;
- the **consolidator** reduces the returned rows to diagnostic statistics;
- the **scientist** weaves the level reports into one story;
- the **drafter** writes the final report and scrubs step and level labels from it.

The model is organised as follows:

- Each node is a function from the state and the external services to either a partial update or a fault.
  - A fault is an exception that escapes the node.
  - The partial update is what the node's `return` dictionary holds.
- The graph merges each update into the state. `working_notes`, `consolidated_results` and `analyst_summaries` are appended to; every other returned key overwrites.
- The run follows the fixed edges and the analyst's route until it reaches the end node, a fault, or the recursion limit of 50 steps. `Workflow.Execute` is the executor over any step function; `Workflow.Run` is that executor over the graph's own step. Properties of whole runs are proved once for any step function with the needed step property, then applied to the graph's step.
- Where the source runs a `for` loop that updates variables or records, the loop is a method. It is proved equal to the function that the graph uses:
  - the thinker's normalisation of the blueprint ("loop-breaker");
  - the orchestrator's table resolution;
  - the act node's work-item loop;
  - the consolidator's summarising loop;
  - the drafter's context loop.

  The short loop that writes `pct_of_total_impact` into the four ranked records is modelled by the function `ConsolidatorNode.RankedRows`, which builds the annotated records directly.

The two external services are function-valued fields of `Services.Oracles`:

- the text generator, which has one entry per prompt;
- the query engine.

Modules, one per file: `Wrappers`, `Text` (the string operations the code applies), `Schema` (table constants and the live schema), `Blueprint`, `Evidence` (rows, outcomes, summaries), `AgentState`, `Services`, `ThinkerNode`, `AnalystNode`, `OrchestratorNode`, `ActNode`, `ConsolidatorNode`, `SynthesisNodes` and `Workflow`.

## Behaviour as the code has it

In several places the code does something other than what its own comments, prompts and log messages announce. The model follows the code, and lemmas state each case:

- **Repair restarts the drill-down.** On a failed step, the analyst keeps the level cursor and routes back to planning. The thinker then sets the cursor to 0, so the whole drill-down starts again from the first level rather than re-planning only the failed level (`Workflow.FailureRestartsAtFirstLevel`).
- **The audit verdict is a substring test.** A verdict counts as approval whenever "Satisfied" occurs in it, so "Not Satisfied" approves the plan (`AnalystNode.NegatedDecisionApproves`). The plan-audit criteria (scope, schema, grain, depth, join keys) live only in the prompt.
- **The orchestrator's finalize route is never read.** Past the last level the orchestrator sets "Finalizing" and the finalize route, but its outgoing edge is fixed. The act node runs next and fails on the level lookup (`Workflow.FinalizeFromOrchestratorCrashes`). An approved plan that has no `Full_Blueprint` ends the run this way (`Workflow.ApprovedPlanWithoutLevelsCrashes`).
- **The repair loop has no explicit ceiling.** If the auditor is never satisfied, thinker and analyst alternate until the recursion limit ends the run: 25 planning rounds from the start (`Workflow.NeverSatisfiedAuditorHitsTheLimit`). No "incomplete" result is produced.
- **SQL is only de-fenced.** The generated SQL is stripped of markdown fences and one trailing `;`. It is not validated against the execution constraints.
- **The drafter never sees correlations.** It reads `correlation_metrics` and `period`, which the consolidator never writes (`metrics` is the key it writes). Every finding reaches the drafter with an empty correlation and the period "Unknown" (`SynthesisNodes.CorrelationNeverForwarded`).
- **Label scrubbing can create a label.** Deleting `Level \d` can join the surrounding text into a new `Level \d`, which survives (`SynthesisNodes.ScrubbingCanSpliceALabel`).
- **Shares can exceed 100%.** A share of the total lies between 0 and 100 only when the metric has no negative values (`ConsolidatorNode.ShareIsPercentage`, `ConsolidatorNode.NegativeValueInflatesShare`).
- **The orchestrator's rewrite is visible in the plan.** The orchestrator rewrites the step records in place. Those records are shared with the stored blueprint, so the resolved steps also replace the level's steps in the plan (`OrchestratorNode.Orchestrator`).

## Model

| member | source | states |
|---|---|---|
| AgentState.Apply | Python/iis-multiagent-deploy.py:34-48 | merging a node's return value keeps the question, appends exactly the returned notes, layers and reports to the `operator.add` keys, overwrites every other returned key and keeps every key not returned |
| AgentState.ApplyOverwrites | Python/iis-multiagent-deploy.py:34-48 | each key without a reducer takes the returned value when the node returns it and keeps its old value otherwise |
| AgentState.EmptyReturnChangesNothing | Python/iis-multiagent-deploy.py:34-48 | a node that returns `{}` leaves the state as it was |
| ThinkerNode.NormalisedLevel | Python/iis-multiagent-deploy.py:325-336 | a Category level's steps all target the category table; a Correlation level's steps get the fixed join logic and the join sentinel; titles, tiers and step counts are kept; other levels are untouched |
| ThinkerNode.NormaliseLevels | Python/iis-multiagent-deploy.py:324-336 | the nested rewriting loops produce exactly the normalised levels |
| ThinkerNode.NormalisedKeepsLevelCount | Python/iis-multiagent-deploy.py:325-343 | normalising never empties or fills the level list, so it cannot cause the first-level lookup to fail |
| ThinkerNode.NextPlan | Python/iis-multiagent-deploy.py:320-340 | an unusable reply leaves the current plan; a usable one is returned with its level list normalised, present exactly when the draft has one |
| ThinkerNode.Thinker | Python/iis-multiagent-deploy.py:296-351 | the node fails exactly when the plan it would return has an empty level list; otherwise it returns the normalised draft (the current plan when the draft is unusable), increments the round count, resets the cursor to 0, sets Planning and adds exactly the note that names the returned plan's start level |
| ThinkerNode.LastFeedback | Python/iis-multiagent-deploy.py:299-304 | the feedback is the last working note, or "Initial Request" when there are no notes |
| ThinkerNode.StartLevel | Python/iis-multiagent-deploy.py:343 | the first level's analysis level (itself "Unknown" when that level names none), or "Unknown" when the blueprint has no level list |
| AnalystNode.AuditRequestOf | Python/iis-multiagent-deploy.py:368-392 | the audit prompt carries the question, the plan, the number of levels, and the first level's analysis level or "Empty" when the plan has no levels |
| AnalystNode.PlanAudit | Python/iis-multiagent-deploy.py:366-392 | fails exactly on an unparsable verdict; routes to proceed and Executing exactly when "Satisfied" occurs in the decision, otherwise to recontextualize and Planning with the feedback in the note; the cursor is reset to 0 |
| AnalystNode.FirstFailure | Python/iis-multiagent-deploy.py:401-406 | none exactly when no step of the layer failed; otherwise the error message of the first failed step |
| AnalystNode.ExecutionAudit | Python/iis-multiagent-deploy.py:395-454 | an empty vault routes to planning; a failed step keeps the cursor, routes to recontextualize and quotes the first error; a clean layer fails exactly when the cursor is past the plan, and otherwise adds the one level report the text generator writes for the level's title, Analysis_Level and the latest layer, then advances the cursor with next_hypothesis and a "summarised" note, or after the last level routes to finalize with the final note |
| AnalystNode.Analyst | Python/iis-multiagent-deploy.py:355-454 | every successful return sets a route; while planning it fails exactly on an unparsable verdict and resets the cursor to 0; otherwise it fails exactly on a clean layer with the cursor past the plan |
| AnalystNode.NegatedDecisionApproves | Python/iis-multiagent-deploy.py:384-385 | the verdict "Not Satisfied" approves the plan and routes to proceed |
| OrchestratorNode.DefaultTable | Python/iis-multiagent-deploy.py:493-496 | the level's own table when it names one, else the tier's table from the level map, else the region table; never empty |
| OrchestratorNode.ResolvedStep | Python/iis-multiagent-deploy.py:486-496 | join steps and correlation-level steps target the join sentinel with the two correlation sources; steps naming a table keep it; others get the default table; every resolved target is non-empty and ids and logic are kept |
| OrchestratorNode.ResolveWorkItems | Python/iis-multiagent-deploy.py:484-496 | the in-place resolution loop yields exactly the resolved steps of the level |
| OrchestratorNode.Orchestrator | Python/iis-multiagent-deploy.py:458-506 | past the last level it returns Finalizing and the finalize route only; otherwise it fails exactly on a missing title or an empty step list, and else returns the level's steps with their tables resolved (`ResolvedSteps`), each with a non-empty target and its step id, writes them back into the plan's level, sets Executing and adds the note naming the step count, the level and the last step's table |
| ActNode.LookupKey | Python/iis-multiagent-deploy.py:688 | the schema key never contains a dot or a backtick |
| ActNode.BareNameResolves | Python/iis-multiagent-deploy.py:688 | a bare table name is its own schema key |
| ActNode.QualifiedNameResolves | Python/iis-multiagent-deploy.py:688 | a fully qualified, backticked table reference has the bare table name as its schema key |
| ActNode.Unfenced | Python/iis-multiagent-deploy.py:723 | after deleting every "```sql" and then every "```", no fence is left, and the text is no longer |
| ActNode.DropSemicolon | Python/iis-multiagent-deploy.py:724 | a trailing `;` is removed exactly when there is one, only that one, and nothing else changes |
| ActNode.CleanSql | Python/iis-multiagent-deploy.py:722-724 | the cleaned SQL contains no markdown fence, is no longer than the reply, and is the stripped, de-fenced, re-stripped reply, with its trailing `;` removed exactly when it has one |
| ActNode.FencedReplyIsCleaned | Python/iis-multiagent-deploy.py:722-724 | a reply "```sql", line break, statement, `;`, line break, "```" cleans back to the statement |
| ActNode.PlainSqlUnchanged | Python/iis-multiagent-deploy.py:721-724 | SQL with no fence, no surrounding whitespace and no final `;` passes through cleaning unchanged |
| ActNode.SchemaContextOf | Python/iis-multiagent-deploy.py:690-704 | the join context exactly for the join sentinel, carrying the live columns of the sales-tenure table and of the agent table; otherwise the strict schema under the lookup key, with columns exactly when the key is a live table, and then exactly that table's live columns |
| ActNode.SqlRequestOf | Python/iis-multiagent-deploy.py:707-717 | the SQL prompt carries the item's step id, logic and target table, that table's schema context, the two quarters and the current level name |
| ActNode.StepOutcome | Python/iis-multiagent-deploy.py:706-747 | keeps the step id; a generator failure records "SQL NOT GENERATED"; otherwise the cleaned SQL is recorded, and the step succeeds with the engine's rows exactly when the engine accepts it, else fails with the engine's message |
| ActNode.RunItem | Python/iis-multiagent-deploy.py:717-747 | one pass of the loop body produces the step's outcome |
| ActNode.Outcomes | Python/iis-multiagent-deploy.py:685-747 | the node fails exactly when some work item has no target table; otherwise one outcome per item |
| ActNode.OutcomesPerItem | Python/iis-multiagent-deploy.py:685-747 | the outcomes are recorded in work-item order: the j-th outcome is the j-th item's generate-clean-run result |
| ActNode.ExecuteItems | Python/iis-multiagent-deploy.py:685-747 | the work-item loop yields exactly those outcomes |
| ActNode.Act | Python/iis-multiagent-deploy.py:670-749 | fails exactly when the plan has no blueprint, the cursor is past it, or an item lacks a target; otherwise returns only the outcomes, one per work item, under the current level's name |
| ActNode.RecordedSqlIsFenceFree | Python/iis-multiagent-deploy.py:723-737 | every query that succeeded was free of markdown fences |
| ConsolidatorNode.FirstBest | Python/iis-multiagent-deploy.py:803-804 | the chosen row is beaten by no other row and strictly beats every earlier one, so it is the first of the tied best |
| ConsolidatorNode.Leaders | Python/iis-multiagent-deploy.py:803-804 | up to two distinct rows: the best, then the best of the rest |
| ConsolidatorNode.FourRowRanking | Python/iis-multiagent-deploy.py:803-808 | for values 10, 20, 30, 40 the top two are 40 and 30 and the bottom two are 10 and 20, at 10% and 20% of the total |
| ConsolidatorNode.Share | Python/iis-multiagent-deploy.py:806-808 | a positive total gives the value's percentage of it; any other total gives 0 |
| ConsolidatorNode.ShareIsPercentage | Python/iis-multiagent-deploy.py:806-808 | with no negative values every share of the total lies between 0 and 100 |
| ConsolidatorNode.NegativeValueInflatesShare | Python/iis-multiagent-deploy.py:806-808 | with a negative value present a share can be 200% |
| ConsolidatorNode.MeanWithinRange | Python/iis-multiagent-deploy.py:812 | a column mean lies between the column's bounds |
| ConsolidatorNode.FirstDimension | Python/iis-multiagent-deploy.py:785-787 | the first column that is neither numeric nor "Quarter", if any |
| ConsolidatorNode.DimensionName | Python/iis-multiagent-deploy.py:786-787 | never "Quarter"; "Total_Organization" when every column is numeric or "Quarter"; otherwise the name of the first column that is neither numeric nor "Quarter" |
| ConsolidatorNode.CorrelationIgnoresCase | Python/iis-multiagent-deploy.py:789 | a column containing "CORR" in capitals makes the step a correlation step, because the test lower-cases the names |
| ConsolidatorNode.Primary | Python/iis-multiagent-deploy.py:799 | the frequency column when present, else the first numeric column |
| ConsolidatorNode.NumericColumns | Python/iis-multiagent-deploy.py:785 | exactly the numeric columns, in column order |
| ConsolidatorNode.Averages | Python/iis-multiagent-deploy.py:812 | one entry per numeric column, holding its name and mean |
| ConsolidatorNode.RankedRows | Python/iis-multiagent-deploy.py:806-808 | one record per pick, in pick order: the picked row with its key's share of the column total |
| ConsolidatorNode.Describe | Python/iis-multiagent-deploy.py:776-816 | a correlation step pairs each column with the first row's value; otherwise it is a distribution, failing exactly on a non-numeric primary metric, with the dimension, the means and the row count; the outliers are the two leading rows each way by the primary metric, each annotated with its share of the column total, and there are none without a primary metric |
| ConsolidatorNode.OutlierSharesArePercentages | Python/iis-multiagent-deploy.py:803-808 | with no negative metric values every outlier's share is between 0 and 100; with a total that is not positive every share is 0 |
| ConsolidatorNode.OutliersAreExtremes | Python/iis-multiagent-deploy.py:799-808 | the outliers are rows of the data, two or all of them; the first top outlier has the highest metric and the first bottom outlier the lowest |
| ConsolidatorNode.Summarise | Python/iis-multiagent-deploy.py:766-822 | keeps the step id; a failed step keeps its message; no rows gives the no-rows summary; fails exactly when describing the rows fails, and otherwise carries exactly the statistics describing the rows yields |
| ConsolidatorNode.Layer | Python/iis-multiagent-deploy.py:765-824 | fails exactly when some outcome cannot be summarised; otherwise one summary per outcome, in order |
| ConsolidatorNode.SummariseAll | Python/iis-multiagent-deploy.py:765-824 | the summarising loop yields exactly that layer |
| ConsolidatorNode.Consolidator | Python/iis-multiagent-deploy.py:757-829 | appends exactly one layer, as long as the act results, and one note naming level cursor+1; nothing else changes |
| ConsolidatorNode.InsightsReachTheVault | Python/iis-multiagent-deploy.py:770-829 | a successful step that returned rows is stored in the new layer, at its own position, with the statistics computed from its rows |
| ConsolidatorNode.FailuresReachTheVault | Python/iis-multiagent-deploy.py:821-822 | a step that failed in the act node is in the vault as failed, with its message |
| SynthesisNodes.Chapters | Python/iis-multiagent-deploy.py:895-898 | the research context begins with chapter 1, the first report, and ends with the last report's chapter |
| SynthesisNodes.ChaptersExtend | Python/iis-multiagent-deploy.py:895-898 | appending a report appends one numbered chapter and keeps the earlier chapters' text and numbers |
| SynthesisNodes.ChaptersCount | Python/iis-multiagent-deploy.py:895-898 | the research context is empty exactly when there are no reports |
| SynthesisNodes.Scientist | Python/iis-multiagent-deploy.py:886-930 | the woven story is both the scientist's summary and the provisional answer; Finalizing; one note; reports, vault and plan untouched |
| SynthesisNodes.FindingOf | Python/iis-multiagent-deploy.py:1013-1022 | only successful steps give a finding, always with period "Unknown" and no correlation; a distribution hands on its dimension, averages and both outlier lists unchanged; a correlation record hands on its dimension only; an empty result gives dimension "Unknown" and empty lists |
| SynthesisNodes.Findings | Python/iis-multiagent-deploy.py:1013-1022 | empty exactly when every step of the layer failed; no finding carries a correlation |
| SynthesisNodes.FindingsAppend | Python/iis-multiagent-deploy.py:1013-1022 | the findings follow the layer's order: one more summary adds its own finding at the end, or nothing when it failed |
| SynthesisNodes.LabelOf | Python/iis-multiagent-deploy.py:1010 | the plan level's tier, failing when it has none, or "Level i+1" past the plan's end |
| SynthesisNodes.ReportContext | Python/iis-multiagent-deploy.py:1009-1023 | fails exactly when a layer's plan level has no tier; otherwise one entry per vault layer with its label and findings |
| SynthesisNodes.CollectFindings | Python/iis-multiagent-deploy.py:1013-1022 | the inner loop yields exactly the layer's findings |
| SynthesisNodes.BuildContext | Python/iis-multiagent-deploy.py:1009-1023 | the outer loop yields exactly the report context |
| SynthesisNodes.CorrelationNeverForwarded | Python/iis-multiagent-deploy.py:1022 | no finding given to the drafter carries a correlation or a period |
| SynthesisNodes.Sanitise | Python/iis-multiagent-deploy.py:1052-1056 | a report without step labels, level labels or "##" is delivered unchanged |
| SynthesisNodes.StepLabelDeleted | Python/iis-multiagent-deploy.py:1052 | a step label at the front of a report is deleted, whatever follows it |
| SynthesisNodes.StepOneTwoDeleted | Python/iis-multiagent-deploy.py:1052 | "Step 1.2" followed by plain text is delivered as that text |
| SynthesisNodes.HeadingsRuled | Python/iis-multiagent-deploy.py:1052-1056 | a report with no step or level label is delivered with every "##" replaced by "---\n##", left to right; one that opens with "##" opens with the rule |
| SynthesisNodes.HeadingGetsRule | Python/iis-multiagent-deploy.py:1056 | "##" followed by plain text is delivered as "---\n##" followed by that text, so "## Summary" becomes "---\n## Summary" |
| SynthesisNodes.ScrubbingCanSpliceALabel | Python/iis-multiagent-deploy.py:1052-1053 | scrubbing "LevLevel 1el 2" yields "Level 2", which still contains a level label |
| SynthesisNodes.Drafter | Python/iis-multiagent-deploy.py:997-1061 | fails exactly when a layer's plan level lacks a tier; otherwise the answer is the scrubbed draft written from the question, the story and the context, plus one note |
| Workflow.RouteTarget | Python/iis-multiagent-deploy.py:1080-1089 | recontextualize leads to the thinker, proceed and next_hypothesis to the orchestrator, finalize to the scientist |
| Workflow.Successor | Python/iis-multiagent-deploy.py:1077-1095 | the fixed edges thinker to analyst, orchestrator to act, act to consolidator, consolidator to analyst and scientist to drafter; the analyst goes where its route says; only the analyst without a route fails; only the drafter leads to the end |
| Workflow.StepOnce | Python/iis-multiagent-deploy.py:1064-1097 | a step that continues merged the node's update into the state; a node's fault ends the step with the state unchanged |
| Workflow.Execute | Python/iis-multiagent-deploy.py:1064-1097 | the executor of the compiled graph: the end node finishes the run and a spent budget stops it at the limit, before any further node runs |
| Workflow.Run | Python/iis-multiagent-deploy.py:1064-1097 | a run at the end node is finished, a run with no budget left stops at the limit, and over a whole run the notes, vault and reports only grow and the question never changes |
| Workflow.FinishedAfterDeliveringStep | Python/iis-multiagent-deploy.py:1094-1095 | for any step function whose steps into the end leave the delivery note last, every finished execution has that note last |
| Workflow.Answer | Python/iis-multiagent-deploy.py:1119-1134 | however the run from the thinker with the limit of 50 ends, its state keeps the question and the opening note |
| Workflow.AnalystAlwaysRoutes | Python/iis-multiagent-deploy.py:1080-1082 | the analyst always sets a route, so the router never fails after it |
| Workflow.FinishedRunsEndWithTheReport | Python/iis-multiagent-deploy.py:1094-1095 | a run that reaches the end has the drafter's delivery note last |
| Workflow.AlternationSpendsBudget | Python/iis-multiagent-deploy.py:1077-1088 | for any step function whose thinker always re-plans and whose analyst always sends the plan back, an execution from the thinker ends at the limit with one round per two steps and one note per step |
| Workflow.ThinkerReplansUnder | Python/iis-multiagent-deploy.py:296-351 | when every draft has levels or none at all, the thinker's step leads to the analyst with a planning state, a plan that is not empty, one more round and one more note |
| Workflow.AnalystSendsBackUnder | Python/iis-multiagent-deploy.py:366-392 | when the auditor is never satisfied, the analyst's step on a planning state leads back to the thinker with the same plan and round and one more note |
| Workflow.RepairLoopSpendsBudget | Python/iis-multiagent-deploy.py:1077-1088 | under a never-satisfied auditor the run exhausts its budget, with one planning round per two steps and one note per step |
| Workflow.NeverSatisfiedAuditorHitsTheLimit | Python/iis-multiagent-deploy.py:1134 | with the limit of 50, such a run ends at the limit after 25 planning rounds |
| Workflow.FinalizeFromOrchestratorCrashes | Python/iis-multiagent-deploy.py:463-464 | past the last level the orchestrator is followed by the act node, which fails on the missing blueprint or the level index |
| Workflow.ApprovedPlanWithoutLevelsCrashes | Python/iis-multiagent-deploy.py:384-392 | approving a plan without `Full_Blueprint` ends the run with the act node's missing-blueprint fault |
| Workflow.FailureRestartsAtFirstLevel | Python/iis-multiagent-deploy.py:405-413 | a failed step routes to the thinker, which sets the cursor back to the first level |

## Left out

- Prompt wording and the generated text itself. Each service call is a function of the inputs the code puts into its prompt. A reply the thinker cannot parse or walk is one `Malformed` value.
- The plan-audit criteria (scope, schema fidelity, grain, depth, join keys). They exist only in the prompt text, not in the code.
- The query engine and `get_latest_quarters` are parameters. The quarters are one value per run, although the code queries them at every thinker and act call.
- SQL validation and repair. Apart from stripping fences and one trailing `;`, the code does none.
- pandas type handling. Numeric columns are those whose every value is a number. Date and Decimal conversion, NaN and missing values are not modelled.
- Rounding. Shares are not rounded to 2 decimals, nor means to 4.
- Tie order in top and bottom selection. `sort_values` uses an unstable sort; the model picks the earliest row among ties.
- An explicitly empty `target_table` is treated like an absent one. The orchestrator treats both alike; the act node would fail only on an absent one, and it never receives either.
- Unicode. `strip` removes the ASCII whitespace and the separators 0x1C to 0x1F, but not the non-ASCII whitespace Python also strips (such as 0x85, 0xA0 and the Unicode spaces); `lower` and `\d` are modelled for ASCII letters and digits only.
- Service calls outside any `try`. `get_latest_quarters` (lines 297 and 678) and the text generator's calls for the level report, the story and the draft (lines 435, 916 and 1048) raise out of their nodes and end the run when the service fails. The model's quarters, `reportLevel`, `weave` and `draft` always answer, so a run cannot end through their failure.
- Blueprints the typed `Blueprint.Plan` cannot hold. A blueprint the thinker walks without error can still make a later node raise: `"Steps": null`, or a step that is not an object in a level that is neither Category nor Correlation (the orchestrator raises at lines 486-493), or a `target_table` that is a truthy non-string (`.split` raises at line 688). The model's levels, steps and table names are always well typed, so these runs are not represented.
- The `history` key, printing and logging, and the JSON layout of the prompts.
- The `VelocityAgent` wrapper and its returned dictionary. `Workflow.Answer` is the invocation itself.
- LangGraph's own step counting. The recursion limit is modelled as at most 50 node executions. At that limit `app.invoke` raises `GraphRecursionError`, and it re-raises a node's exception, so `VelocityAgent.run` (lines 1134-1139) returns nothing in either case: the states that `Workflow.LimitExceeded` and `Workflow.Crashed` carry describe the run up to that point and are never returned to a caller.
- The other files of the repository (the CSV agent, the BigQuery and MCP toolsets, the React front end) are not part of this model.

=== FILE: act.dfy ===
/**
 * The act node: for every work item of the current level, asks the text
 * generator for SQL, cleans the reply, runs it and records the outcome.
 * A failure of either service becomes a "failed" outcome; only a work item
 * without a target table (and a missing plan or level) stops the node.
 */
module ActNode {
  import opened Wrappers
  import opened Text
  import opened Schema
  import opened Blueprint
  import opened Evidence
  import opened AgentState
  import opened Services

  // ---------------------------------------------------------------------------
  // The schema lookup key.

  /** The last dotted component of a table reference, without backticks or surrounding whitespace. */
  function LookupKey(target: string): (k: string)
    ensures '.' !in k && '`' !in k
  {
    var key := Strip(Without(AfterLast(target, '.'), '`'));
    assert forall c :: c in key ==> c in Without(AfterLast(target, '.'), '`') by {
      StripIsSlice(Without(AfterLast(target, '.'), '`'));
    }
    key
  }

  lemma StripIsSlice(s: string)
    ensures exists a, b :: 0 <= a <= b <= |s| && Strip(s) == s[a..b]
  {
    var t := StripStart(s);
    var r := StripEnd(t);
    assert r == s[|s| - |t|..|s| - |t| + |r|];
  }

  /** Of `x + [sep] + t` with a separator-free `t`, the only separator-free suffix that follows a separator (or is all of it) is `t`. */
  lemma SepFreeSuffixes(x: string, sep: char, t: string, s: string, r: string)
    requires s == x + [sep] + t
    requires sep !in t && sep !in r
    requires |r| <= |s| && r == s[|s| - |r|..]
    requires |r| < |s| ==> s[|s| - |r| - 1] == sep
    ensures r == t
  {
    assert |r| <= |t| by {
      assert s[|s| - |t| - 1] == sep;
      forall i | |s| - |r| <= i < |s|
        ensures s[i] != sep
      {
        assert s[i] == r[i - (|s| - |r|)];
      }
    }
    assert |r| >= |t| by {
      forall i | |s| - |t| <= i < |s|
        ensures s[i] != sep
      {
        assert s[i] == t[i - (|s| - |t|)];
      }
    }
    assert s[|s| - |t|..] == t;
  }

  lemma AfterLastOfQualified(x: string, sep: char, t: string)
    requires sep !in t
    ensures AfterLast(x + [sep] + t, sep) == t
  {
    var s := x + [sep] + t;
    SepFreeSuffixes(x, sep, t, s, AfterLast(s, sep));
  }

  lemma {:induction false} WithoutAbsent(s: string, c: char)
    requires c !in s
    ensures Without(s, c) == s
    decreases |s|
  {
    if s != [] {
      WithoutAbsent(s[1..], c);
      assert s == [s[0]] + s[1..];
    }
  }

  lemma {:induction false} WithoutAppend(a: string, b: string, c: char)
    ensures Without(a + b, c) == Without(a, c) + Without(b, c)
    decreases |a|
  {
    if a != [] {
      assert (a + b)[1..] == a[1..] + b;
      WithoutAppend(a[1..], b, c);
    } else {
      assert a + b == b;
    }
  }

  /** A name with nothing to strip at its edges is its own stripped form. */
  lemma StripTrimmed(t: string)
    requires t == [] || (!IsSpace(t[0]) && !IsSpace(t[|t| - 1]))
    ensures Strip(t) == t
  {
  }

  /** A bare table name is its own lookup key. */
  lemma BareNameResolves(t: string)
    requires '.' !in t && '`' !in t
    requires t == [] || (!IsSpace(t[0]) && !IsSpace(t[|t| - 1]))
    ensures LookupKey(t) == t
  {
    WithoutAbsent(t, '`');
    StripTrimmed(t);
  }

  /** A fully qualified, backticked table reference has the bare table name as its lookup key. */
  lemma QualifiedNameResolves(path: string, t: string)
    requires '.' !in t && '`' !in t
    requires t == [] || (!IsSpace(t[0]) && !IsSpace(t[|t| - 1]))
    ensures LookupKey("`" + path + "." + t + "`") == t
  {
    var tail := t + "`";
    assert "`" + path + "." + t + "`" == ("`" + path) + ['.'] + tail;
    KeyOfLastComponent("`" + path, tail);
    WithoutClosingTick(t);
    StripTrimmed(t);
  }

  lemma KeyOfLastComponent(x: string, tail: string)
    requires '.' !in tail
    ensures LookupKey(x + ['.'] + tail) == Strip(Without(tail, '`'))
  {
    AfterLastOfQualified(x, '.', tail);
  }

  lemma WithoutClosingTick(t: string)
    requires '`' !in t
    ensures Without(t + "`", '`') == t
  {
    WithoutAppend(t, "`", '`');
    WithoutAbsent(t, '`');
    assert Without("`", '`') == [];
    assert t + [] == t;
  }

  // ---------------------------------------------------------------------------
  // Cleaning the generated SQL.

  const SqlFence: Pattern := Literal("```sql")

  /** Every "```sql" and then every "```" deleted: no fence is left. */
  function Unfenced(a: string): (c: string)
    ensures !Occurs(c, Fence)
    ensures |c| <= |a|
  {
    var b := SubAll(a, SqlFence, []);
    RemovalLength(a, SqlFence);
    RemovalLength(b, Fence);
    NoFenceAfterRemoval(b);
    SubAll(b, Fence, [])
  }

  /** `sql[:-1]` when `sql` ends with ';'. */
  function DropSemicolon(d: string): (sql: string)
    ensures sql == d || sql + ";" == d
    // The final ';' is dropped exactly when there is one.
    ensures sql + ";" == d <==> |d| > 0 && d[|d| - 1] == ';'
    ensures !Occurs(d, Fence) ==> !Occurs(sql, Fence)
  {
    if |d| > 0 && d[|d| - 1] == ';' then
      OccursInSlice(d, 0, |d| - 1, Fence);
      d[..|d| - 1]
    else d
  }

  /** Strip, drop every "```sql" and every "```", strip again, drop one trailing ';'. */
  function CleanSql(raw: string): (sql: string)
    ensures !Occurs(sql, Fence)
    ensures |sql| <= |raw|
    ensures var d := Strip(Unfenced(Strip(raw))); sql == d || sql + ";" == d
    ensures var d := Strip(Unfenced(Strip(raw))); sql + ";" == d <==> |d| > 0 && d[|d| - 1] == ';'
  {
    var c := Unfenced(Strip(raw));
    StripKeepsAbsence(c, Fence);
    DropSemicolon(Strip(c))
  }

  lemma SqlFenceHasFence(s: string)
    requires !Occurs(s, Fence)
    ensures !Occurs(s, SqlFence)
  {
    forall i | 0 <= i <= |s| - |SqlFence| && MatchAt(s, i, SqlFence)
      ensures false
    {
      assert MatchAt(s, i, Fence) by {
        forall k | 0 <= k < 3 ensures Admits(Fence[k], s[i + k]) {
          assert Fence[k] == SqlFence[k];
        }
      }
    }
  }

  /** SQL that has no fence, no surrounding whitespace and no final ';' passes through unchanged. */
  lemma PlainSqlUnchanged(raw: string)
    requires !Occurs(raw, Fence)
    requires raw == [] || (!IsSpace(raw[0]) && !IsSpace(raw[|raw| - 1]) && raw[|raw| - 1] != ';')
    ensures CleanSql(raw) == raw
  {
    StripTrimmed(raw);
    SqlFenceHasFence(raw);
    AbsentMeansUnchanged(raw, SqlFence, []);
    AbsentMeansUnchanged(raw, Fence, []);
    StripTrimmed(raw);
  }

  /** A SQL fence match is a plain fence match at the same place. */
  lemma SqlFenceStartsAFence(s: string, i: int)
    requires MatchAt(s, i, SqlFence)
    ensures MatchAt(s, i, Fence)
  {
    forall k | 0 <= k < 3 ensures Admits(Fence[k], s[i + k]) {
      assert Fence[k] == SqlFence[k];
    }
  }

  /** In "\n" + b + ";\n```" with fence-free `b`, the only fence is the closing one. */
  lemma OnlyTheClosingFence(b: string)
    requires !Occurs(b, Fence)
    ensures var m := "\n" + b + ";\n";
      forall i :: 0 <= i < |m| ==> !MatchAt(m + "```", i, Fence) && !MatchAt(m + "```", i, SqlFence)
  {
    var m := "\n" + b + ";\n";
    var t := m + "```";
    FenceFacts();
    forall i | 0 <= i < |m|
      ensures !MatchAt(t, i, Fence)
    {
      if i == 0 {
        assert !Admits(Fence[0], t[0]);
      } else if i + 2 <= |b| {
        forall k | 0 <= k < 3
          ensures Admits(Fence[k], t[i + k]) == Admits(Fence[k], b[i - 1 + k])
        {
          assert t[i + k] == b[i - 1 + k];
        }
        assert !MatchAt(b, i - 1, Fence);
      } else if i <= |b| + 1 {
        var k := |b| + 1 - i;
        assert t[i + k] == ';';
        assert !Admits(Fence[k], t[i + k]);
      } else {
        assert t[i] == '\n';
        assert !Admits(Fence[0], t[i]);
      }
    }
    forall i | 0 <= i < |m|
      ensures !MatchAt(t, i, SqlFence)
    {
      if MatchAt(t, i, SqlFence) {
        SqlFenceStartsAFence(t, i);
      }
    }
  }

  /** The opening "```sql" is deleted. */
  lemma OpeningFenceDropped(t: string)
    ensures SubAll("```sql" + t, SqlFence, []) == SubAll(t, SqlFence, [])
  {
    var raw := "```sql" + t;
    assert MatchAt(raw, 0, SqlFence) by {
      forall k | 0 <= k < 6 ensures Admits(SqlFence[k], raw[k]) {
        assert SqlFence[k] == Lit("```sql"[k]);
      }
    }
    assert raw[6..] == t;
  }

  /** A closing "```" that no earlier match reaches: the SQL-fence pass keeps it, the fence pass deletes it. */
  lemma ClosingFenceHandled(m: string)
    requires forall i :: 0 <= i < |m| ==> !MatchAt(m + "```", i, Fence) && !MatchAt(m + "```", i, SqlFence)
    ensures SubAll(m + "```", SqlFence, []) == m + "```"
    ensures SubAll(m + "```", Fence, []) == m
  {
    SubAllSkip(m, "```", SqlFence);
    AbsentMeansUnchanged("```", SqlFence, []);
    SubAllSkip(m, "```", Fence);
    FenceFacts();
    assert MatchAt("```", 0, Fence);
    assert SubAll("```", Fence, []) == [];
    assert m + [] == m;
  }

  /** Both fences of "```sql" + m + "```" go, and nothing else. */
  lemma FencesRemoved(b: string)
    requires !Occurs(b, Fence)
    ensures Unfenced("```sql" + ("\n" + b + ";\n") + "```") == "\n" + b + ";\n"
  {
    var m := "\n" + b + ";\n";
    OnlyTheClosingFence(b);
    OpeningFenceDropped(m + "```");
    assert "```sql" + m + "```" == "```sql" + (m + "```");
    ClosingFenceHandled(m);
  }

  /**
   * A reply wrapped in a SQL fence, with a final ';' on its own line before the
   * closing fence, cleans to the statement inside.
   */
  lemma FencedReplyIsCleaned(b: string)
    requires !Occurs(b, Fence)
    requires b == [] || !IsSpace(b[0])
    ensures CleanSql("```sql\n" + b + ";\n```") == b
  {
    var m := "\n" + b + ";\n";
    var raw := "```sql" + m + "```";
    assert "```sql\n" + b + ";\n```" == raw;
    StripTrimmed(raw);
    FencesRemoved(b);
    assert m == "\n" + (b + ";") + "\n";
    StripFramed(b + ";");
    CleanedInSteps(raw, m, b);
  }

  lemma CleanedInSteps(raw: string, m: string, x: string)
    requires Strip(raw) == raw && Unfenced(raw) == m && Strip(m) == x + ";"
    ensures CleanSql(raw) == x
  {
    assert (x + ";")[..|x|] == x;
  }

  // ---------------------------------------------------------------------------
  // One work item.

  /** The schema text for a target: both join tables' columns, or the looked-up table's (absent when unknown). */
  function SchemaContextOf(target: string): (c: SchemaContext)
    ensures target == JoinMultiple <==> c.JoinContext?
    ensures c.StrictSchema? ==> c.lookupKey == LookupKey(target) && (c.columns.Some? <==> LookupKey(target) in LiveSchema)
    ensures c.StrictSchema? && c.columns.Some? ==> c.columns.value == LiveSchema[c.lookupKey]
    ensures c.JoinContext? ==>
      c.salesColumns == LiveSchema[SalesTenureTable] && c.agentColumns == LiveSchema[AgentTable]
  {
    if target == JoinMultiple then
      JoinContext(ColumnsOf(SalesTenureTable).GetOr([]), ColumnsOf(AgentTable).GetOr([]))
    else
      StrictSchema(LookupKey(target), ColumnsOf(LookupKey(target)))
  }

  /** The inputs of the SQL prompt for one work item. */
  function SqlRequestOf(step: Step, levelName: string, o: Oracles): (q: SqlRequest)
    ensures q.stepId == step.stepId && q.stepLogic == step.logic && q.targetTable == step.targetTable
    ensures q.schemaContext == SchemaContextOf(step.targetTable)
    ensures q.quarters == o.quarters && q.analysisLevel == levelName
  {
    SqlRequest(step.stepId, step.logic, step.targetTable, SchemaContextOf(step.targetTable), o.quarters, levelName)
  }

  /** The SQL recorded when the generator call itself fails. */
  const NotGenerated := "SQL NOT GENERATED"

  /** The outcome of one work item that names its target table. */
  function StepOutcome(step: Step, levelName: string, o: Oracles): (r: Outcome)
    ensures r.stepId == step.stepId
    ensures o.writeSql(SqlRequestOf(step, levelName, o)).Err? ==>
      r == Failed(step.stepId, o.writeSql(SqlRequestOf(step, levelName, o)).error, NotGenerated)
    ensures o.writeSql(SqlRequestOf(step, levelName, o)).Ok? ==>
      var sql := CleanSql(o.writeSql(SqlRequestOf(step, levelName, o)).value);
      && (r.Succeeded? <==> o.runQuery(sql).Ok?)
      && (r.Succeeded? ==> r.sql == sql && r.data == o.runQuery(sql).value)
      && (r.Failed? ==> r.sqlAttempted == sql && r.errorMessage == o.runQuery(sql).error)
  {
    match o.writeSql(SqlRequestOf(step, levelName, o))
    case Err(e) => Failed(step.stepId, e, NotGenerated)
    case Ok(raw) =>
      var sql := CleanSql(raw);
      match o.runQuery(sql)
      case Err(e) => Failed(step.stepId, e, sql)
      case Ok(rows) => Succeeded(step.stepId, sql, rows)
  }

  // ---------------------------------------------------------------------------
  // The node.

  /** Some work item has no target table: `split` on it raises before the step's `try`. */
  predicate SomeTargetMissing(items: seq<Step>) {
    exists j :: 0 <= j < |items| && items[j].targetTable == ""
  }

  lemma MissingSplit(items: seq<Step>)
    requires items != []
    ensures SomeTargetMissing(items) <==>
      SomeTargetMissing(items[..|items| - 1]) || items[|items| - 1].targetTable == ""
  {
    var n := |items| - 1;
    if SomeTargetMissing(items) {
      var j :| 0 <= j < |items| && items[j].targetTable == "";
      if j < n {
        assert items[..n][j] == items[j];
      }
    }
    if SomeTargetMissing(items[..n]) {
      var j :| 0 <= j < n && items[..n][j].targetTable == "";
      assert items[j] == items[..n][j];
    }
  }

  /** The outcomes the work-item loop records, or the crash when an item has no target table. */
  function Outcomes(items: seq<Step>, levelName: string, o: Oracles): (r: Result<seq<Outcome>, Fault>)
    ensures r.Err? <==> SomeTargetMissing(items)
    ensures r.Err? ==> r.error == MissingTargetTable
    ensures r.Ok? ==> |r.value| == |items|
    decreases |items|
  {
    if items == [] then Ok([])
    else
      var n := |items| - 1;
      var earlier := Outcomes(items[..n], levelName, o);
      MissingSplit(items);
      if earlier.Err? || items[n].targetTable == "" then Err(MissingTargetTable)
      else Ok(earlier.value + [StepOutcome(items[n], levelName, o)])
  }

  /** Each recorded outcome is the outcome of the work item at the same position. */
  lemma {:induction false} OutcomesPerItem(items: seq<Step>, levelName: string, o: Oracles)
    ensures Outcomes(items, levelName, o).Ok? ==>
      forall j :: 0 <= j < |items| ==>
        Outcomes(items, levelName, o).value[j] == StepOutcome(items[j], levelName, o)
    decreases |items|
  {
    if items != [] && Outcomes(items, levelName, o).Ok? {
      var n := |items| - 1;
      OutcomesPerItem(items[..n], levelName, o);
      var all := Outcomes(items, levelName, o).value;
      var earlier := Outcomes(items[..n], levelName, o).value;
      assert all == earlier + [StepOutcome(items[n], levelName, o)];
      forall j | 0 <= j < |items|
        ensures all[j] == StepOutcome(items[j], levelName, o)
      {
        if j < n {
          assert all[j] == earlier[j];
          assert items[..n][j] == items[j];
        } else {
          assert all[j] == StepOutcome(items[n], levelName, o);
        }
      }
    }
  }

  /** One pass of the work-item loop's body: generate, clean, run. */
  method RunItem(item: Step, levelName: string, o: Oracles) returns (outcome: Outcome)
    ensures outcome == StepOutcome(item, levelName, o)
  {
    var generated := NotGenerated;
    match o.writeSql(SqlRequestOf(item, levelName, o))
    case Err(e) =>
      outcome := Failed(item.stepId, e, generated);
    case Ok(raw) =>
      generated := CleanSql(raw);
      match o.runQuery(generated)
      case Err(e) =>
        outcome := Failed(item.stepId, e, generated);
      case Ok(rows) =>
        outcome := Succeeded(item.stepId, generated, rows);
  }

  /** The work-item loop as the code runs it, appending one outcome per item until an item has no target. */
  method ExecuteItems(items: seq<Step>, levelName: string, o: Oracles) returns (r: Result<seq<Outcome>, Fault>)
    ensures r == Outcomes(items, levelName, o)
  {
    var all: seq<Outcome> := [];
    var j := 0;
    while j < |items|
      invariant 0 <= j <= |items|
      invariant Outcomes(items[..j], levelName, o) == Ok(all)
      decreases |items| - j
    {
      assert items[..j + 1][..j] == items[..j];
      if items[j].targetTable == "" {
        assert SomeTargetMissing(items);
        return Err(MissingTargetTable);
      }
      var outcome := RunItem(items[j], levelName, o);
      all := all + [outcome];
      j := j + 1;
    }
    assert items[..j] == items;
    r := Ok(all);
  }

  /** The act node. */
  function Act(s: State, o: Oracles): (r: Result<Update, Fault>)
    ensures r.Err? <==>
      s.plan.fullBlueprint.None? || s.hIndex >= |Levels(s.plan)| || SomeTargetMissing(s.workItems)
    ensures s.plan.fullBlueprint.None? ==> r == Err(NoBlueprint)
    ensures s.plan.fullBlueprint.Some? && s.hIndex >= |Levels(s.plan)| ==> r == Err(LevelIndexOutOfRange)
    ensures r.Ok? ==>
      && r.value.lastActResult.Some?
      && |r.value.lastActResult.value| == |s.workItems|
      && (forall j :: 0 <= j < |s.workItems| ==>
            r.value.lastActResult.value[j] == StepOutcome(s.workItems[j], LevelName(Levels(s.plan)[s.hIndex]), o))
      && r.value == NoChange.(lastActResult := r.value.lastActResult)
  {
    match s.plan.fullBlueprint
    case None => Err(NoBlueprint)
    case Some(levels) =>
      if s.hIndex >= |levels| then Err(LevelIndexOutOfRange)
      else
        OutcomesPerItem(s.workItems, LevelName(levels[s.hIndex]), o);
        match Outcomes(s.workItems, LevelName(levels[s.hIndex]), o)
        case Err(f) => Err(f)
        case Ok(all) => Ok(NoChange.(lastActResult := Some(all)))
  }

  /** Every query sent to the engine is free of markdown fences. */
  lemma RecordedSqlIsFenceFree(s: State, o: Oracles)
    ensures Act(s, o).Ok? ==>
      forall j :: 0 <= j < |s.workItems| && Act(s, o).value.lastActResult.value[j].Succeeded? ==>
        !Occurs(Act(s, o).value.lastActResult.value[j].sql, Fence)
  {
  }
}

=== FILE: analyst.dfy ===
/**
 * The analyst node, in its two roles: while planning it turns the plan
 * audit's decision into a route; while executing it checks the level just
 * consolidated, and either sends the plan back, moves the cursor to the
 * next level, or finishes.
 */
module AnalystNode {
  import opened Wrappers
  import opened Text
  import opened Blueprint
  import opened Evidence
  import opened AgentState
  import opened Services

  /** The inputs of the plan-audit prompt: the question, the plan's depth and its first level ("Empty" for none). */
  function AuditRequestOf(s: State): (q: AuditRequest)
    ensures q.question == s.question && q.plan == s.plan
    ensures q.numLevels == |Levels(s.plan)|
    ensures Levels(s.plan) == [] ==> q.planStartLevel == "Empty"
    ensures Levels(s.plan) != [] ==> q.planStartLevel == LevelName(Levels(s.plan)[0])
  {
    var ls := Levels(s.plan);
    AuditRequest(s.question, |ls|, if ls == [] then "Empty" else LevelName(ls[0]), s.plan)
  }

  /** Role 1: the plan audit. */
  function PlanAudit(s: State, o: Oracles): (r: Result<Update, Fault>)
    ensures r.Err? <==> o.auditPlan(AuditRequestOf(s)).Unparsable?
    ensures r.Ok? ==>
      var reply := o.auditPlan(AuditRequestOf(s));
      && (r.value.route == Some(Proceed) <==> Contains(reply.decision, "Satisfied"))
      && (r.value.route == Some(Recontextualize) <==> !Contains(reply.decision, "Satisfied"))
      && (r.value.status == Some(Executing) <==> Contains(reply.decision, "Satisfied"))
      && (r.value.status == Some(Planning) <==> !Contains(reply.decision, "Satisfied"))
      && r.value.hIndex == Some(0)
      && r.value.notes == [if Contains(reply.decision, "Satisfied") then Approved else FixingBlueprint(reply.feedback)]
      && r.value.plan.None? && r.value.iterationCount.None? && r.value.workItems.None?
      && r.value.consolidated == [] && r.value.analystSummaries == []
  {
    match o.auditPlan(AuditRequestOf(s))
    case Unparsable => Err(AuditUnparsable)
    case Reply(decision, feedback) =>
      var satisfied := Contains(decision, "Satisfied");
      Ok(NoChange.(
        hIndex := Some(0),
        route := Some(if satisfied then Proceed else Recontextualize),
        notes := [if satisfied then Approved else FixingBlueprint(feedback)],
        status := Some(if satisfied then Executing else Planning)))
  }

  /** The `error_message` of the first failed step of a layer, if any step failed. */
  function FirstFailure(layer: seq<Summary>): (m: Option<string>)
    ensures m.None? <==> forall i :: 0 <= i < |layer| ==> !layer[i].FailedStep?
    ensures m.Some? ==> exists i :: (0 <= i < |layer| && layer[i].FailedStep? && layer[i].errorMessage == m.value
      && forall k :: 0 <= k < i ==> !layer[k].FailedStep?)
  {
    if layer == [] then None
    else if layer[0].FailedStep? then Some(layer[0].errorMessage)
    else
      var m := FirstFailure(layer[1..]);
      if m.Some? then
        ghost var i :| 0 <= i < |layer[1..]| && layer[1..][i].FailedStep? && layer[1..][i].errorMessage == m.value
          && forall k :: 0 <= k < i ==> !layer[1..][k].FailedStep?;
        assert layer[i + 1].FailedStep? && forall k :: 0 <= k < i + 1 ==> !layer[k].FailedStep?;
        m
      else m
  }

  /** Role 2: the execution audit of the latest consolidated layer. */
  function ExecutionAudit(s: State, o: Oracles): (r: Result<Update, Fault>)
    // No layer yet: back to planning, nothing else said.
    ensures s.consolidated == [] ==>
      r == Ok(NoChange.(route := Some(Recontextualize), status := Some(Planning)))
    // A failed step: back to planning with the cursor kept and the first error quoted.
    ensures s.consolidated != [] && FirstFailure(s.consolidated[|s.consolidated| - 1]).Some? ==>
      r == Ok(NoChange.(
        hIndex := Some(s.hIndex),
        route := Some(Recontextualize),
        notes := [CriticalError(s.hIndex + 1, FirstFailure(s.consolidated[|s.consolidated| - 1]).value)],
        status := Some(Planning)))
    // A clean layer: exactly one level report, then the next level or the end.
    ensures s.consolidated != [] && FirstFailure(s.consolidated[|s.consolidated| - 1]).None? ==>
      && (r.Err? <==> s.hIndex >= |Levels(s.plan)|)
      && (r.Ok? ==>
        var level := Levels(s.plan)[s.hIndex];
        var last := s.consolidated[|s.consolidated| - 1];
        && r.value.analystSummaries == [o.reportLevel(LevelReportRequest(level.title, level.analysisLevel, last))]
        && r.value.status == Some(Executing)
        && (s.hIndex + 1 < |Levels(s.plan)| ==>
              && r.value.route == Some(NextHypothesis) && r.value.hIndex == Some(s.hIndex + 1)
              && r.value.notes == [LevelSummarised(s.hIndex + 1, level.analysisLevel)])
        && (s.hIndex + 1 >= |Levels(s.plan)| ==>
              && r.value.route == Some(Finalize) && r.value.hIndex.None?
              && r.value.notes == [FinalLevelSummarised(s.hIndex + 1)]))
    ensures r.Ok? ==> r.value.plan.None? && r.value.iterationCount.None? && r.value.consolidated == []
  {
    if s.consolidated == [] then
      Ok(NoChange.(route := Some(Recontextualize), status := Some(Planning)))
    else
      var last := s.consolidated[|s.consolidated| - 1];
      var idx := s.hIndex;
      var levels := Levels(s.plan);
      match FirstFailure(last)
      case Some(detail) =>
        Ok(NoChange.(
          hIndex := Some(idx),
          route := Some(Recontextualize),
          notes := [CriticalError(idx + 1, detail)],
          status := Some(Planning)))
      case None =>
        if idx >= |levels| then Err(LevelIndexOutOfRange)
        else
          var level := levels[idx];
          var report := o.reportLevel(LevelReportRequest(level.title, level.analysisLevel, last));
          if idx + 1 < |levels| then
            Ok(NoChange.(
              hIndex := Some(idx + 1),
              analystSummaries := [report],
              route := Some(NextHypothesis),
              notes := [LevelSummarised(idx + 1, level.analysisLevel)],
              status := Some(Executing)))
          else
            Ok(NoChange.(
              analystSummaries := [report],
              route := Some(Finalize),
              notes := [FinalLevelSummarised(idx + 1)],
              status := Some(Executing)))
  }

  /** The analyst node: the plan audit while planning, the execution audit otherwise. */
  function Analyst(s: State, o: Oracles): (r: Result<Update, Fault>)
    ensures r.Ok? ==> r.value.route.Some?
    ensures s.status == Planning ==> (r.Err? <==> o.auditPlan(AuditRequestOf(s)).Unparsable?)
    ensures s.status == Planning && r.Ok? ==> r.value.hIndex == Some(0)
    ensures s.status != Planning ==>
      (r.Err? <==> s.consolidated != [] && FirstFailure(s.consolidated[|s.consolidated| - 1]).None?
                   && s.hIndex >= |Levels(s.plan)|)
  {
    if s.status == Planning then PlanAudit(s, o) else ExecutionAudit(s, o)
  }

  /**
   * The decision is searched for the substring "Satisfied", so a reply of
   * "Not Satisfied" approves the plan.
   */
  lemma NegatedDecisionApproves(s: State, o: Oracles)
    requires s.status == Planning
    requires o.auditPlan(AuditRequestOf(s)) == Reply("Not Satisfied", "")
    ensures Analyst(s, o).Ok? && Analyst(s, o).value.route == Some(Proceed)
  {
    assert MatchAt("Not Satisfied", 4, Literal("Satisfied"));
  }
}

=== FILE: blueprint.dfy ===
/**
 * The investigation blueprint the thinker drafts: levels of the drill-down,
 * each with its analysis level and its steps.
 *
 * Absent JSON keys are `None` (or the empty string for a target table, which
 * the code tests only for truthiness); keys the code never reads are left out.
 */
module Blueprint {
  import opened Wrappers

  /** One step of a level; `targetTable` is "" when missing or empty. */
  datatype Step = Step(stepId: string, logic: string, targetTable: string, sourceTables: seq<string>)

  /** One level of the drill-down (`Hypothesis_Title`, `Analysis_Level`, `Analysis_Level_Table`, `Steps`). */
  datatype Level = Level(
    title: Option<string>,
    analysisLevel: Option<string>,
    levelTable: string,
    steps: seq<Step>)

  /** The plan record; `fullBlueprint` is `None` when the `Full_Blueprint` key is absent, as in `{}`. */
  datatype Plan = Plan(fullBlueprint: Option<seq<Level>>)

  /** The empty plan `{}` a run starts from. */
  const EmptyPlan := Plan(None)

  /** `plan.get('Full_Blueprint', [])`. */
  function Levels(p: Plan): seq<Level> {
    p.fullBlueprint.GetOr([])
  }

  /** `level.get('Analysis_Level', 'Unknown')`. */
  function LevelName(l: Level): string {
    l.analysisLevel.GetOr("Unknown")
  }

  /** Replaces the steps of level `i`, leaving every other level as it was. */
  function WithSteps(p: Plan, i: nat, steps: seq<Step>): (q: Plan)
    requires p.fullBlueprint.Some? && i < |p.fullBlueprint.value|
    ensures q.fullBlueprint.Some? && |q.fullBlueprint.value| == |p.fullBlueprint.value|
    ensures q.fullBlueprint.value[i] == p.fullBlueprint.value[i].(steps := steps)
    ensures forall j :: 0 <= j < |p.fullBlueprint.value| && j != i ==>
      q.fullBlueprint.value[j] == p.fullBlueprint.value[j]
  {
    var ls := p.fullBlueprint.value;
    Plan(Some(ls[i := ls[i].(steps := steps)]))
  }
}

=== FILE: consolidator.dfy ===
/**
 * The consolidator node: turns each outcome of the act node into a summary.
 * A successful step with rows is reduced to diagnostic statistics: either a
 * correlation record, or the column means plus the two highest and the two
 * lowest rows by a primary metric, each with its share of the metric's total.
 */
module ConsolidatorNode {
  import opened Wrappers
  import opened Text
  import opened Evidence
  import opened AgentState
  import opened Services

  // ---------------------------------------------------------------------------
  // Ranking a numeric column.

  /** `a` ranks strictly ahead of `b`: higher when descending, lower when ascending. */
  predicate Ahead(a: real, b: real, descending: bool) {
    if descending then a > b else a < b
  }

  /** Some index below `n` other than `skip` exists. */
  predicate HasCandidate(n: nat, skip: int) {
    n > (if 0 <= skip < n then 1 else 0)
  }

  /**
   * The first index below `n`, other than `skip`, whose key no other such
   * index beats: the first of the tied best.
   */
  function FirstBest(keys: seq<real>, skip: int, descending: bool, n: nat): (i: nat)
    requires n <= |keys| && HasCandidate(n, skip)
    ensures i < n && i != skip
    ensures forall j :: 0 <= j < n && j != skip ==> !Ahead(keys[j], keys[i], descending)
    ensures forall j :: 0 <= j < i && j != skip ==> Ahead(keys[i], keys[j], descending)
    decreases n
  {
    if !HasCandidate(n - 1, skip) then n - 1
    else
      var c := FirstBest(keys, skip, descending, n - 1);
      if n - 1 != skip && Ahead(keys[n - 1], keys[c], descending) then n - 1 else c
  }

  /**
   * The indices of `df.sort_values(...).head(2)`: the best row, then the best
   * of the others, ties going to the earlier row.
   */
  function Leaders(keys: seq<real>, descending: bool): (r: seq<nat>)
    ensures |r| == (if |keys| < 2 then |keys| else 2)
    ensures forall m :: 0 <= m < |r| ==> r[m] < |keys|
    ensures |r| == 2 ==> r[0] != r[1]
    ensures |r| > 0 ==> forall j :: 0 <= j < |keys| ==> !Ahead(keys[j], keys[r[0]], descending)
    ensures |r| == 2 ==> forall j :: 0 <= j < |keys| && j != r[0] ==> !Ahead(keys[j], keys[r[1]], descending)
  {
    if |keys| == 0 then []
    else
      var first := FirstBest(keys, -1, descending, |keys|);
      if |keys| == 1 then [first] else [first, FirstBest(keys, first, descending, |keys|)]
  }

  function Sum(keys: seq<real>): real {
    if keys == [] then 0.0 else Sum(keys[..|keys| - 1]) + keys[|keys| - 1]
  }

  /** `pct_of_total_impact`: the value's percentage of a positive total, else 0 (rounding not modelled). */
  function Share(v: real, total: real): (pct: real)
    ensures total <= 0.0 ==> pct == 0.0
    ensures total > 0.0 ==> pct * total == v * 100.0
  {
    if total > 0.0 then v / total * 100.0 else 0.0
  }

  lemma {:induction false} SumNonNegativeBoundsEach(keys: seq<real>, i: nat)
    requires forall j :: 0 <= j < |keys| ==> keys[j] >= 0.0
    requires i < |keys|
    ensures 0.0 <= keys[i] <= Sum(keys)
    decreases |keys|
  {
    var n := |keys| - 1;
    if i < n {
      SumNonNegativeBoundsEach(keys[..n], i);
    } else {
      SumNonNegative(keys[..n]);
    }
  }

  lemma {:induction false} SumNonNegative(keys: seq<real>)
    requires forall j :: 0 <= j < |keys| ==> keys[j] >= 0.0
    ensures Sum(keys) >= 0.0
    decreases |keys|
  {
    if keys != [] {
      SumNonNegative(keys[..|keys| - 1]);
    }
  }

  /** With no negative values, every row's share of the total lies between 0 and 100 percent. */
  lemma ShareIsPercentage(keys: seq<real>, i: nat)
    requires forall j :: 0 <= j < |keys| ==> keys[j] >= 0.0
    requires i < |keys|
    ensures 0.0 <= Share(keys[i], Sum(keys)) <= 100.0
  {
    SumNonNegativeBoundsEach(keys, i);
    var t := Sum(keys);
    if t > 0.0 {
      FractionOfWhole(keys[i], t);
    }
  }

  lemma FractionOfWhole(a: real, t: real)
    requires 0.0 <= a <= t && t > 0.0
    ensures 0.0 <= a / t <= 1.0
  {
    var q := a / t;
    assert q * t == a;
    CancelFactor(q, 1.0, t);
    CancelFactor(0.0, q, t);
  }

  lemma CancelFactor(x: real, y: real, t: real)
    requires t > 0.0 && x * t <= y * t
    ensures x <= y
  {
  }

  /** With a negative value in the column, a share can exceed 100 percent. */
  lemma NegativeValueInflatesShare()
    ensures Share(20.0, Sum([-10.0, 20.0])) == 200.0
  {
    assert [-10.0, 20.0][..1] == [-10.0];
    assert [-10.0][..0] == [];
  }

  /** The arithmetic mean `df[col].mean()` (rounding not modelled). */
  function Mean(keys: seq<real>): (m: real)
    requires keys != []
  {
    Sum(keys) / (|keys| as real)
  }

  lemma {:induction false} SumBetween(keys: seq<real>, lo: real, hi: real)
    requires forall j :: 0 <= j < |keys| ==> lo <= keys[j] <= hi
    ensures (|keys| as real) * lo <= Sum(keys) <= (|keys| as real) * hi
    decreases |keys|
  {
    if keys != [] {
      var n := |keys| - 1;
      SumBetween(keys[..n], lo, hi);
      assert (|keys| as real) * lo == (n as real) * lo + lo;
      assert (|keys| as real) * hi == (n as real) * hi + hi;
    }
  }

  /** A column's mean lies between its smallest and its largest value. */
  lemma MeanWithinRange(keys: seq<real>, lo: real, hi: real)
    requires keys != []
    requires forall j :: 0 <= j < |keys| ==> lo <= keys[j] <= hi
    ensures lo <= Mean(keys) <= hi
  {
    SumBetween(keys, lo, hi);
    var c := |keys| as real;
    assert Mean(keys) * c == Sum(keys);
  }

  // ---------------------------------------------------------------------------
  // Columns of a row set.

  const PrimaryMetric := "CurrentQuarter_whole_frequency"
  const QuarterColumn := "Quarter"
  const WholeOrganization := "Total_Organization"

  /** A column every row of which holds a number: what pandas reports as a number dtype. */
  predicate IsNumeric(f: RowSet, c: nat)
    requires c < |f.columns|
  {
    forall r :: 0 <= r < |f.rows| ==> f.rows[r][c].Num?
  }

  function Keys(f: RowSet, c: nat): (keys: seq<real>)
    requires c < |f.columns| && IsNumeric(f, c)
    ensures |keys| == |f.rows|
    ensures forall r :: 0 <= r < |f.rows| ==> keys[r] == f.rows[r][c].n
  {
    seq(|f.rows|, r requires 0 <= r < |f.rows| => f.rows[r][c].n)
  }

  /** The first column that is neither numeric nor "Quarter". */
  function FirstDimension(f: RowSet, from: nat): (d: Option<nat>)
    requires from <= |f.columns|
    ensures d.Some? ==> from <= d.value < |f.columns| && !IsNumeric(f, d.value) && f.columns[d.value] != QuarterColumn
    ensures d.Some? ==> forall c :: from <= c < d.value ==> IsNumeric(f, c) || f.columns[c] == QuarterColumn
    ensures d.None? ==> forall c :: from <= c < |f.columns| ==> IsNumeric(f, c) || f.columns[c] == QuarterColumn
    decreases |f.columns| - from
  {
    if from == |f.columns| then None
    else if !IsNumeric(f, from) && f.columns[from] != QuarterColumn then Some(from)
    else FirstDimension(f, from + 1)
  }

  /** `dimension_name`: the first non-numeric column other than "Quarter", else "Total_Organization". */
  function DimensionName(f: RowSet): (d: string)
    ensures d != QuarterColumn
    ensures (forall c :: 0 <= c < |f.columns| ==> IsNumeric(f, c) || f.columns[c] == QuarterColumn) ==>
      d == WholeOrganization
    ensures d != WholeOrganization ==> exists c :: 0 <= c < |f.columns| && f.columns[c] == d && !IsNumeric(f, c)
    // A column that is neither numeric nor "Quarter" rules out the sentinel: the first such column names the dimension.
    ensures (exists c :: 0 <= c < |f.columns| && !IsNumeric(f, c) && f.columns[c] != QuarterColumn) ==>
      exists c :: 0 <= c < |f.columns| && !IsNumeric(f, c) && f.columns[c] != QuarterColumn && d == f.columns[c]
        && forall b :: 0 <= b < c ==> IsNumeric(f, b) || f.columns[b] == QuarterColumn
  {
    match FirstDimension(f, 0)
    case Some(c) => f.columns[c]
    case None => WholeOrganization
  }

  /** Some column name contains "corr", ignoring case. */
  predicate IsCorrelationStep(f: RowSet) {
    exists c :: 0 <= c < |f.columns| && Contains(Lower(f.columns[c]), "corr")
  }

  /** The "corr" test ignores case: a column naming "CORR" in capitals makes a correlation step. */
  lemma CorrelationIgnoresCase(f: RowSet, c: nat, i: nat)
    requires c < |f.columns|
    requires MatchAt(f.columns[c], i, Literal("CORR"))
    ensures IsCorrelationStep(f)
  {
    var col := f.columns[c];
    var low := Lower(col);
    var upper := Literal("CORR");
    var lower := Literal("corr");
    forall k | 0 <= k < 4 ensures Admits(lower[k], low[i + k]) {
      assert upper[k] == Lit("CORR"[k]);
      assert lower[k] == Lit("corr"[k]);
      assert col[i + k] == "CORR"[k];
    }
    assert MatchAt(low, i, lower);
  }

  function IndexOf(cols: seq<string>, name: string, from: nat): (i: Option<nat>)
    requires from <= |cols|
    ensures i.Some? ==> from <= i.value < |cols| && cols[i.value] == name
    ensures i.None? ==> forall c :: from <= c < |cols| ==> cols[c] != name
    decreases |cols| - from
  {
    if from == |cols| then None
    else if cols[from] == name then Some(from)
    else IndexOf(cols, name, from + 1)
  }

  function FirstNumeric(f: RowSet, from: nat): (i: Option<nat>)
    requires from <= |f.columns|
    ensures i.Some? ==> from <= i.value < |f.columns| && IsNumeric(f, i.value)
    ensures i.Some? ==> forall c :: from <= c < i.value ==> !IsNumeric(f, c)
    ensures i.None? ==> forall c :: from <= c < |f.columns| ==> !IsNumeric(f, c)
    decreases |f.columns| - from
  {
    if from == |f.columns| then None
    else if IsNumeric(f, from) then Some(from)
    else FirstNumeric(f, from + 1)
  }

  /** The ranking column: the frequency column when present, else the first numeric column. */
  function Primary(f: RowSet): (p: Option<nat>)
    ensures p.Some? ==> p.value < |f.columns|
    ensures PrimaryMetric in f.columns ==> p.Some? && f.columns[p.value] == PrimaryMetric
    ensures PrimaryMetric !in f.columns ==> p == FirstNumeric(f, 0)
  {
    match IndexOf(f.columns, PrimaryMetric, 0)
    case Some(i) => Some(i)
    case None => FirstNumeric(f, 0)
  }

  /** The numeric columns in column order. */
  function NumericColumns(f: RowSet, from: nat): (cs: seq<nat>)
    requires from <= |f.columns|
    ensures forall m :: 0 <= m < |cs| ==> from <= cs[m] < |f.columns| && IsNumeric(f, cs[m])
    ensures forall c :: from <= c < |f.columns| && IsNumeric(f, c) ==> c in cs
    ensures forall m, m' :: 0 <= m < m' < |cs| ==> cs[m] < cs[m']
    decreases |f.columns| - from
  {
    if from == |f.columns| then []
    else if IsNumeric(f, from) then [from] + NumericColumns(f, from + 1)
    else NumericColumns(f, from + 1)
  }

  /** `global_averages`: each numeric column's name and mean. */
  function Averages(f: RowSet): (avg: seq<(string, real)>)
    requires f.rows != []
    ensures |avg| == |NumericColumns(f, 0)|
    ensures forall m :: 0 <= m < |avg| ==>
      var c := NumericColumns(f, 0)[m];
      avg[m] == (f.columns[c], Mean(Keys(f, c)))
  {
    var cs := NumericColumns(f, 0);
    seq(|cs|, m requires 0 <= m < |cs| => (f.columns[cs[m]], Mean(Keys(f, cs[m]))))
  }

  function RankedRows(f: RowSet, keys: seq<real>, picks: seq<nat>): (rs: seq<Ranked>)
    requires |keys| == |f.rows|
    requires forall m :: 0 <= m < |picks| ==> picks[m] < |keys|
    ensures |rs| == |picks|
    ensures forall m :: 0 <= m < |picks| ==>
      rs[m] == Ranked(f.rows[picks[m]], Share(keys[picks[m]], Sum(keys)))
  {
    seq(|picks|, m requires 0 <= m < |picks| => Ranked(f.rows[picks[m]], Share(keys[picks[m]], Sum(keys))))
  }

  /** Each ranked row has a number in column `c`, and its share is that number's share of `total`. */
  predicate SharesOf(rs: seq<Ranked>, c: nat, total: real) {
    forall m :: 0 <= m < |rs| ==>
      c < |rs[m].row| && rs[m].row[c].Num? && rs[m].pctOfTotalImpact == Share(rs[m].row[c].n, total)
  }

  /** The rows a ranking on a numeric column picks carry that column's number, and their shares are of its total. */
  lemma RankedShares(f: RowSet, p: nat, descending: bool)
    requires p < |f.columns| && IsNumeric(f, p)
    ensures SharesOf(RankedRows(f, Keys(f, p), Leaders(Keys(f, p), descending)), p, Sum(Keys(f, p)))
  {
  }

  /** The statistics of a non-empty row set, or the fault the ranking raises on a non-numeric primary metric. */
  function Describe(f: RowSet): (r: Result<Stats, Fault>)
    requires f.rows != []
    ensures IsCorrelationStep(f) ==>
      r == Ok(Correlation(DimensionName(f), seq(|f.columns|, c requires 0 <= c < |f.columns| => (f.columns[c], f.rows[0][c]))))
    ensures !IsCorrelationStep(f) ==>
      (r.Err? <==> Primary(f).Some? && f.columns[Primary(f).value] != "" && !IsNumeric(f, Primary(f).value))
    ensures !IsCorrelationStep(f) && r.Ok? ==> r.value.Distribution?
    ensures r.Ok? && r.value.Distribution? ==>
      && r.value.dimensionName == DimensionName(f)
      && r.value.totalRecords == |f.rows|
      && r.value.globalAverages == Averages(f)
      && |r.value.topOutliers| == |r.value.bottomOutliers| <= 2
    // No usable ranking column: no outliers.
    ensures !IsCorrelationStep(f) && (Primary(f).None? || f.columns[Primary(f).value] == "") ==>
      r.Ok? && r.value.topOutliers == [] && r.value.bottomOutliers == []
    // The two highest and the two lowest rows, each with its share of the column total.
    ensures (!IsCorrelationStep(f) && Primary(f).Some? && f.columns[Primary(f).value] != ""
             && IsNumeric(f, Primary(f).value)) ==>
      var p := Primary(f).value;
      var keys := Keys(f, p);
      && r.Ok?
      && r.value.topOutliers == RankedRows(f, keys, Leaders(keys, true))
      && r.value.bottomOutliers == RankedRows(f, keys, Leaders(keys, false))
      && SharesOf(r.value.topOutliers, p, Sum(keys))
      && SharesOf(r.value.bottomOutliers, p, Sum(keys))
  {
    var dimension := DimensionName(f);
    if IsCorrelationStep(f) then
      Ok(Correlation(dimension, seq(|f.columns|, c requires 0 <= c < |f.columns| => (f.columns[c], f.rows[0][c]))))
    else
      match Primary(f)
      case Some(p) =>
        if f.columns[p] == "" then Ok(Distribution(dimension, Averages(f), [], [], |f.rows|))
        else if !IsNumeric(f, p) then Err(NonNumericMetric)
        else
          var keys := Keys(f, p);
          RankedShares(f, p, true);
          RankedShares(f, p, false);
          Ok(Distribution(dimension, Averages(f),
            RankedRows(f, keys, Leaders(keys, true)),
            RankedRows(f, keys, Leaders(keys, false)),
            |f.rows|))
      case None => Ok(Distribution(dimension, Averages(f), [], [], |f.rows|))
  }

  /** The first top outlier holds the highest metric value and the first bottom outlier the lowest. */
  lemma OutliersAreExtremes(f: RowSet)
    requires f.rows != [] && !IsCorrelationStep(f)
    requires Primary(f).Some? && f.columns[Primary(f).value] != "" && IsNumeric(f, Primary(f).value)
    ensures var p := Primary(f).value;
      var st := Describe(f).value;
      && st.Distribution?
      && |st.topOutliers| == |st.bottomOutliers| == (if |f.rows| < 2 then |f.rows| else 2)
      && (forall m :: 0 <= m < |st.topOutliers| ==> st.topOutliers[m].row in f.rows)
      && (forall m :: 0 <= m < |st.bottomOutliers| ==> st.bottomOutliers[m].row in f.rows)
      && (forall r :: 0 <= r < |f.rows| ==>
            f.rows[r][p].n <= st.topOutliers[0].row[p].n && st.bottomOutliers[0].row[p].n <= f.rows[r][p].n)
  {
    var p := Primary(f).value;
    var keys := Keys(f, p);
    var top := Leaders(keys, true);
    var bottom := Leaders(keys, false);
    assert Describe(f).value.topOutliers == RankedRows(f, keys, top);
    assert Describe(f).value.bottomOutliers == RankedRows(f, keys, bottom);
  }

  /** With no negative keys, every ranked row's share lies between 0 and 100 percent. */
  lemma RankedSharesArePercentages(f: RowSet, keys: seq<real>, picks: seq<nat>)
    requires |keys| == |f.rows|
    requires forall m :: 0 <= m < |picks| ==> picks[m] < |keys|
    requires forall j :: 0 <= j < |keys| ==> keys[j] >= 0.0
    ensures forall m :: 0 <= m < |picks| ==> 0.0 <= RankedRows(f, keys, picks)[m].pctOfTotalImpact <= 100.0
  {
    forall m | 0 <= m < |picks|
      ensures 0.0 <= RankedRows(f, keys, picks)[m].pctOfTotalImpact <= 100.0
    {
      ShareIsPercentage(keys, picks[m]);
    }
  }

  /**
   * With no negative metric values, every outlier's share lies between 0 and
   * 100 percent; with a total that is not positive, every share is 0.
   */
  lemma OutlierSharesArePercentages(f: RowSet)
    requires f.rows != [] && !IsCorrelationStep(f)
    requires Primary(f).Some? && f.columns[Primary(f).value] != "" && IsNumeric(f, Primary(f).value)
    ensures var p := Primary(f).value;
      var st := Describe(f).value;
      (forall r :: 0 <= r < |f.rows| ==> f.rows[r][p].n >= 0.0) ==>
        && (forall m :: 0 <= m < |st.topOutliers| ==> 0.0 <= st.topOutliers[m].pctOfTotalImpact <= 100.0)
        && (forall m :: 0 <= m < |st.bottomOutliers| ==> 0.0 <= st.bottomOutliers[m].pctOfTotalImpact <= 100.0)
    ensures var st := Describe(f).value;
      Sum(Keys(f, Primary(f).value)) <= 0.0 ==>
        && (forall m :: 0 <= m < |st.topOutliers| ==> st.topOutliers[m].pctOfTotalImpact == 0.0)
        && (forall m :: 0 <= m < |st.bottomOutliers| ==> st.bottomOutliers[m].pctOfTotalImpact == 0.0)
  {
    var p := Primary(f).value;
    var keys := Keys(f, p);
    if forall r :: 0 <= r < |f.rows| ==> f.rows[r][p].n >= 0.0 {
      RankedSharesArePercentages(f, keys, Leaders(keys, true));
      RankedSharesArePercentages(f, keys, Leaders(keys, false));
    }
  }

  /** Four rows 10, 20, 30, 40: the top two are 40 and 30, the bottom two 10 and 20, at 10% and 20% of the total. */
  lemma FourRowRanking()
    ensures var keys := [10.0, 20.0, 30.0, 40.0];
      && Leaders(keys, true) == [3, 2]
      && Leaders(keys, false) == [0, 1]
      && Share(keys[0], Sum(keys)) == 10.0
      && Share(keys[1], Sum(keys)) == 20.0
  {
    var keys := [10.0, 20.0, 30.0, 40.0];
    assert keys[..3] == [10.0, 20.0, 30.0];
    assert keys[..3][..2] == [10.0, 20.0];
    assert keys[..3][..2][..1] == [10.0];
    assert [10.0][..0] == [];
    assert Sum([10.0]) == 10.0;
    assert Sum([10.0, 20.0]) == 30.0;
    assert Sum([10.0, 20.0, 30.0]) == 60.0;
    assert Sum(keys) == 100.0;
    var top := Leaders(keys, true);
    assert !Ahead(keys[3], keys[top[0]], true);
    assert top[0] == 3;
    assert !Ahead(keys[2], keys[top[1]], true);
    var bottom := Leaders(keys, false);
    assert !Ahead(keys[0], keys[bottom[0]], false);
    assert bottom[0] == 0;
    assert !Ahead(keys[1], keys[bottom[1]], false);
  }

  // ---------------------------------------------------------------------------
  // The node.

  function Summarise(res: Outcome): (r: Result<Summary, Fault>)
    ensures r.Ok? ==> r.value.stepId == res.stepId
    ensures res.Failed? ==> r == Ok(FailedStep(res.stepId, res.errorMessage))
    ensures res.Succeeded? && res.data.rows == [] ==> r == Ok(NoRows(res.stepId))
    ensures r.Err? <==> res.Succeeded? && res.data.rows != [] && Describe(res.data).Err?
    ensures res.Succeeded? && res.data.rows != [] && Describe(res.data).Ok? ==>
      r == Ok(Insights(res.stepId, Describe(res.data).value))
  {
    match res
    case Failed(id, msg, _) => Ok(FailedStep(id, msg))
    case Succeeded(id, _, f) =>
      if f.rows == [] then Ok(NoRows(id))
      else
        match Describe(f)
        case Err(e) => Err(e)
        case Ok(st) => Ok(Insights(id, st))
  }

  function Layer(results: seq<Outcome>): (r: Result<seq<Summary>, Fault>)
    ensures r.Err? <==> exists j :: 0 <= j < |results| && Summarise(results[j]).Err?
    ensures r.Ok? ==> |r.value| == |results|
    ensures r.Ok? ==>
      (forall j :: 0 <= j < |results| ==> Ok(r.value[j]) == Summarise(results[j]))
  {
    if exists j :: 0 <= j < |results| && Summarise(results[j]).Err? then Err(NonNumericMetric)
    else Ok(seq(|results|, j requires 0 <= j < |results| => Summarise(results[j]).value))
  }

  /** The summarising loop as the code runs it, appending one summary per outcome. */
  method SummariseAll(results: seq<Outcome>) returns (r: Result<seq<Summary>, Fault>)
    ensures r == Layer(results)
  {
    var layer: seq<Summary> := [];
    var j := 0;
    while j < |results|
      invariant 0 <= j <= |results| && |layer| == j
      invariant forall m :: 0 <= m < j ==> Ok(layer[m]) == Summarise(results[m])
    {
      var summary := Summarise(results[j]);
      if summary.Err? {
        return Err(NonNumericMetric);
      }
      layer := layer + [summary.value];
      j := j + 1;
    }
    assert layer == Layer(results).value;
    r := Ok(layer);
  }

  /** The consolidator node: one new layer in the vault and one note. */
  function Consolidator(s: State, o: Oracles): (r: Result<Update, Fault>)
    ensures r.Err? <==> Layer(s.lastActResult).Err?
    ensures r.Ok? ==>
      && r.value.consolidated == [Layer(s.lastActResult).value]
      && |r.value.consolidated[0]| == |s.lastActResult|
      && r.value.notes == [Consolidated(s.hIndex + 1)]
      && r.value == NoChange.(consolidated := r.value.consolidated, notes := r.value.notes)
  {
    match Layer(s.lastActResult)
    case Err(e) => Err(e)
    case Ok(layer) => Ok(NoChange.(consolidated := [layer], notes := [Consolidated(s.hIndex + 1)]))
  }

  /** A step that failed in the act node stays failed, with its message, in the vault. */
  lemma FailuresReachTheVault(s: State, o: Oracles, j: nat)
    requires j < |s.lastActResult| && s.lastActResult[j].Failed?
    ensures Consolidator(s, o).Ok? ==>
      Consolidator(s, o).value.consolidated[0][j] ==
        FailedStep(s.lastActResult[j].stepId, s.lastActResult[j].errorMessage)
  {
  }

  /** A step that returned rows reaches the vault with the statistics `Describe` computes for them. */
  lemma InsightsReachTheVault(s: State, o: Oracles, j: nat)
    requires j < |s.lastActResult| && s.lastActResult[j].Succeeded? && s.lastActResult[j].data.rows != []
    ensures Consolidator(s, o).Ok? ==>
      && Describe(s.lastActResult[j].data).Ok?
      && Consolidator(s, o).value.consolidated[0][j] ==
           Insights(s.lastActResult[j].stepId, Describe(s.lastActResult[j].data).value)
  {
  }
}

=== FILE: evidence.dfy ===
/**
 * What a level's execution produces: the rows a query returns, the per-step
 * outcome the act node records, the per-step summary the consolidator makes
 * of it, and the per-level context the drafter is given.
 */
module Evidence {

  /** A cell of a result row. Dates arrive as text; numbers are kept exactly (no rounding). */
  datatype Value = Num(n: real) | Text(s: string)

  /** Rows as records: the column names in order and, per row, one value per column. */
  datatype Frame = Frame(columns: seq<string>, rows: seq<seq<Value>>)

  predicate WellFormed(f: Frame) {
    && (forall i :: 0 <= i < |f.rows| ==> |f.rows[i]| == |f.columns|)
    && (forall i, j :: 0 <= i < j < |f.columns| ==> f.columns[i] != f.columns[j])
  }

  /** A uniformly shaped row set, as a query returns it. */
  type RowSet = f: Frame | WellFormed(f) witness Frame([], [])

  /** One work item's result: `status` "success" with its SQL and rows, or "failed". */
  datatype Outcome =
    | Succeeded(stepId: string, sql: string, data: RowSet)
    | Failed(stepId: string, errorMessage: string, sqlAttempted: string)

  /** A ranked record annotated with `pct_of_total_impact`. */
  datatype Ranked = Ranked(row: seq<Value>, pctOfTotalImpact: real)

  /** The `insights` of a successful step. */
  datatype Stats =
    | Correlation(dimensionName: string, metrics: seq<(string, Value)>)
    | Distribution(
        dimensionName: string,
        globalAverages: seq<(string, real)>,
        topOutliers: seq<Ranked>,
        bottomOutliers: seq<Ranked>,
        totalRecords: nat)

  /** One entry of a consolidated layer. */
  datatype Summary =
    | NoRows(stepId: string)
    | Insights(stepId: string, stats: Stats)
    | FailedStep(stepId: string, errorMessage: string)

  /** `analysis_level` of a drafter context entry: the level's name or "Level n". */
  datatype LevelLabel = Named(name: string) | Numbered(n: nat)

  /** One `findings` entry the drafter receives for a successful step. */
  datatype Finding = Finding(
    period: string,
    dimension: string,
    averages: seq<(string, real)>,
    topOutliers: seq<Ranked>,
    bottomOutliers: seq<Ranked>,
    correlation: seq<(string, Value)>)

  datatype LevelContext = LevelContext(analysisLevel: LevelLabel, findings: seq<Finding>)
}

=== FILE: graph.dfy ===
/**
 * The compiled workflow: seven nodes, their fixed edges, the analyst's
 * conditional route, and the run itself, which merges each node's return
 * value into the state and stops at the end node, at the first escaping
 * exception, or when the step budget of the recursion limit is spent.
 */
module Workflow {
  import opened Wrappers
  import opened Text
  import opened Blueprint
  import opened AgentState
  import opened Services
  import T = ThinkerNode
  import A = AnalystNode
  import O = OrchestratorNode
  import X = ActNode
  import C = ConsolidatorNode
  import S = SynthesisNodes

  datatype Node = Thinker | Analyst | Orchestrator | Act | Consolidator | Scientist | Drafter | End

  /** The recursion limit the run is invoked with. */
  const RecursionLimit: nat := 50

  /** Runs one node on the state. */
  function Invoke(node: Node, s: State, o: Oracles): Result<Update, Fault>
    requires node != End
  {
    match node
    case Thinker => T.Thinker(s, o)
    case Analyst => A.Analyst(s, o)
    case Orchestrator => O.Orchestrator(s, o)
    case Act => X.Act(s, o)
    case Consolidator => C.Consolidator(s, o)
    case Scientist => S.Scientist(s, o)
    case Drafter => S.Drafter(s, o)
  }

  /** The analyst's route table. */
  function RouteTarget(route: Route): (n: Node)
    ensures n == Thinker <==> route == Recontextualize
    ensures n == Orchestrator <==> route == Proceed || route == NextHypothesis
    ensures n == Scientist <==> route == Finalize
  {
    match route
    case Recontextualize => Thinker
    case Proceed => Orchestrator
    case NextHypothesis => Orchestrator
    case Finalize => Scientist
  }

  /** The node after `node`, read from the merged state; the router fails on a state without a route. */
  function Successor(node: Node, s: State): (r: Result<Node, Fault>)
    requires node != End
    ensures r.Err? <==> node == Analyst && s.route.None?
    ensures r.Ok? && r.value == End <==> node == Drafter
    // The fixed edges.
    ensures node == Thinker ==> r == Ok(Analyst)
    ensures node == Orchestrator ==> r == Ok(Act)
    ensures node == Act ==> r == Ok(Consolidator)
    ensures node == Consolidator ==> r == Ok(Analyst)
    ensures node == Scientist ==> r == Ok(Drafter)
    // The analyst's conditional edge follows the route it left.
    ensures node == Analyst && s.route.Some? ==> r == Ok(RouteTarget(s.route.value))
  {
    match node
    case Thinker => Ok(Analyst)
    case Analyst =>
      (match s.route
       case None => Err(MissingRoute)
       case Some(route) => Ok(RouteTarget(route)))
    case Orchestrator => Ok(Act)
    case Act => Ok(Consolidator)
    case Consolidator => Ok(Analyst)
    case Scientist => Ok(Drafter)
    case Drafter => Ok(End)
  }

  /** One step: run the node, merge its return value, pick the next node. */
  function StepOnce(node: Node, s: State, o: Oracles): (r: Result<(Node, State), (Fault, State)>)
    requires node != End
    ensures r.Ok? ==> Invoke(node, s, o).Ok? && r.value.1 == Apply(s, Invoke(node, s, o).value)
    ensures r.Ok? ==> Successor(node, r.value.1) == Ok(r.value.0)
    ensures r.Err? && Invoke(node, s, o).Err? ==> r.error == (Invoke(node, s, o).error, s)
  {
    match Invoke(node, s, o)
    case Err(f) => Err((f, s))
    case Ok(u) =>
      var t := Apply(s, u);
      match Successor(node, t)
      case Err(f) => Err((f, t))
      case Ok(next) => Ok((next, t))
  }

  datatype Outcome =
    | Finished(state: State)
    | LimitExceeded(state: State)
    | Crashed(fault: Fault, state: State)

  /** A step function of the graph: where a node leads and the merged state, or the fault and the state it left. */
  type Stepper = (Node, State) --> Result<(Node, State), (Fault, State)>

  /** The step function is defined on every node but the end. */
  ghost predicate Total(step: Stepper) {
    forall n: Node, x: State :: n != End ==> step.requires(n, x)
  }

  /** The compiled graph's step function under the services `o`. */
  function Step(o: Oracles): (step: Stepper)
    ensures Total(step)
  {
    (n: Node, x: State) requires n != End => StepOnce(n, x, o)
  }

  /**
   * The executor of a compiled graph: from `node`, with `budget` node
   * executions left, apply `step` until the end node, the first fault, or
   * the budget runs out.
   */
  function Execute(step: Stepper, node: Node, s: State, budget: nat): (r: Outcome)
    requires Total(step)
    ensures node == End ==> r == Finished(s)
    ensures node != End && budget == 0 ==> r == LimitExceeded(s)
    decreases budget
  {
    if node == End then Finished(s)
    else if budget == 0 then LimitExceeded(s)
    else
      match step(node, s)
      case Err((f, t)) => Crashed(f, t)
      case Ok((next, t)) => Execute(step, next, t, budget - 1)
  }

  /** The state a step leaves, whether it continues or fails, extends the state it started from. */
  predicate StepExtends(x: State, r: Result<(Node, State), (Fault, State)>) {
    match r
    case Ok((_, t)) => Extends(x, t)
    case Err((_, t)) => Extends(x, t)
  }

  /** An execution whose every step extends the state extends it overall. */
  lemma {:induction false} ExecuteExtends(step: Stepper, node: Node, s: State, budget: nat)
    requires Total(step)
    requires forall n: Node, x: State :: n != End ==> StepExtends(x, step(n, x))
    ensures Extends(s, Execute(step, node, s, budget).state)
    decreases budget
  {
    if node != End && budget > 0 {
      match step(node, s)
      case Err((f, t)) =>
      case Ok((next, t)) =>
        ExecuteExtends(step, next, t, budget - 1);
        ExtendsTransitive(s, t, Execute(step, next, t, budget - 1).state);
    }
  }

  /** Every step of the compiled graph extends the state. */
  lemma StepsExtend(o: Oracles)
    ensures forall n: Node, x: State :: n != End ==> StepExtends(x, Step(o)(n, x))
  {
    forall n: Node, x: State | n != End
      ensures StepExtends(x, Step(o)(n, x))
    {
      assert Step(o)(n, x) == StepOnce(n, x, o);
    }
  }

  /**
   * The run from `node`, with `budget` node executions left. The notes, the
   * vault and the level reports only grow during a run, and the question
   * never changes.
   */
  function Run(node: Node, s: State, o: Oracles, budget: nat): (r: Outcome)
    ensures node == End ==> r == Finished(s)
    ensures node != End && budget == 0 ==> r == LimitExceeded(s)
    ensures Extends(s, r.state)
  {
    StepsExtend(o);
    ExecuteExtends(Step(o), node, s, budget);
    Execute(Step(o), node, s, budget)
  }

  /**
   * `app.invoke(initial_state, {"recursion_limit": 50})`. Only a `Finished`
   * outcome is a state the invocation returns: at the limit it raises
   * `GraphRecursionError`, and a node's exception propagates, so the states
   * that `LimitExceeded` and `Crashed` carry are never seen by a caller. Every
   * outcome's state keeps the question and the opening note.
   */
  function Answer(question: string, o: Oracles): (r: Outcome)
    ensures r.state.question == question
    ensures |r.state.notes| > 0 && r.state.notes[0] == Initialized
  {
    Run(Thinker, Initial(question), o, RecursionLimit)
  }

  // ---------------------------------------------------------------------------
  // Properties of runs.

  /** A run with budget left whose step continues goes on from where the step leads. */
  lemma RunContinues(node: Node, s: State, o: Oracles, budget: nat, next: Node, t: State)
    requires node != End && budget > 0 && StepOnce(node, s, o) == Ok((next, t))
    ensures Run(node, s, o, budget) == Run(next, t, o, budget - 1)
  {
    assert Step(o)(node, s) == StepOnce(node, s, o);
  }

  /** A run with budget left whose step fails crashes with that fault and state. */
  lemma RunCrashes(node: Node, s: State, o: Oracles, budget: nat, f: Fault, t: State)
    requires node != End && budget > 0 && StepOnce(node, s, o) == Err((f, t))
    ensures Run(node, s, o, budget) == Crashed(f, t)
  {
    assert Step(o)(node, s) == StepOnce(node, s, o);
  }

  /** The analyst always leaves a route, so the router never fails. */
  lemma AnalystAlwaysRoutes(s: State, o: Oracles)
    ensures A.Analyst(s, o).Ok? ==> A.Analyst(s, o).value.route.Some?
    ensures A.Analyst(s, o).Ok? ==> StepOnce(Analyst, s, o).Ok?
  {
  }

  /** The last working note is the drafter's delivery note. */
  predicate Delivered(t: State) {
    t.notes != [] && t.notes[|t.notes| - 1] == ReportDelivered
  }

  /** A step into the end node left the delivery note last. */
  predicate EndDelivers(r: Result<(Node, State), (Fault, State)>) {
    r.Ok? && r.value.0 == End ==> Delivered(r.value.1)
  }

  /** A successful drafter step leaves the delivery note last. */
  lemma DrafterStepDelivers(s: State, o: Oracles)
    ensures Invoke(Drafter, s, o).Ok? ==> Delivered(Apply(s, Invoke(Drafter, s, o).value))
  {
  }

  /** A step that leads to the end was the drafter's, so it delivered the report. */
  lemma EndStepDelivers(node: Node, s: State, o: Oracles)
    requires node != End && StepOnce(node, s, o).Ok? && StepOnce(node, s, o).value.0 == End
    ensures Delivered(StepOnce(node, s, o).value.1)
  {
    assert node == Drafter;
    DrafterStepDelivers(s, o);
  }

  /** An execution whose steps into the end deliver the report has delivered it whenever it finishes. */
  lemma {:induction false} FinishedAfterDeliveringStep(step: Stepper, node: Node, s: State, budget: nat)
    requires Total(step) && node != End
    requires forall n: Node, x: State :: n != End ==> EndDelivers(step(n, x))
    ensures Execute(step, node, s, budget).Finished? ==> Delivered(Execute(step, node, s, budget).state)
    decreases budget
  {
    if budget > 0 {
      assert EndDelivers(step(node, s));
      match step(node, s)
      case Err(_) =>
      case Ok((next, t)) =>
        if next != End {
          FinishedAfterDeliveringStep(step, next, t, budget - 1);
        }
    }
  }

  /** A run that finishes has delivered the drafter's report last. */
  lemma FinishedRunsEndWithTheReport(node: Node, s: State, o: Oracles, budget: nat)
    requires node != End
    ensures Run(node, s, o, budget).Finished? ==> Delivered(Run(node, s, o, budget).state)
  {
    forall n: Node, x: State | n != End
      ensures EndDelivers(Step(o)(n, x))
    {
      assert Step(o)(n, x) == StepOnce(n, x, o);
      if StepOnce(n, x, o).Ok? && StepOnce(n, x, o).value.0 == End {
        EndStepDelivers(n, x, o);
      }
    }
    FinishedAfterDeliveringStep(Step(o), node, s, budget);
  }

  /** Every blueprint the generator drafts has at least one level, or no `Full_Blueprint` at all. */
  ghost predicate DraftsNeverEmpty(o: Oracles) {
    forall req :: o.draftPlan(req).Draft? ==> o.draftPlan(req).plan.fullBlueprint != Some([])
  }

  /** The plan auditor is never satisfied: every verdict parses and none contains "Satisfied". */
  ghost predicate NeverSatisfied(o: Oracles) {
    forall req :: o.auditPlan(req).Reply? && !Contains(o.auditPlan(req).decision, "Satisfied")
  }

  /** The thinker's step from `x` leads to the analyst with a planning state one round and one note further on, and a plan that is not empty. */
  predicate Replanned(x: State, r: Result<(Node, State), (Fault, State)>) {
    && r.Ok? && r.value.0 == Analyst
    && r.value.1.status == Planning && r.value.1.plan.fullBlueprint != Some([])
    && r.value.1.iterationCount == x.iterationCount + 1 && |r.value.1.notes| == |x.notes| + 1
  }

  /** The analyst's step from `x` leads back to the thinker with the same plan and round and one more note. */
  predicate SentBack(x: State, r: Result<(Node, State), (Fault, State)>) {
    && r.Ok? && r.value.0 == Thinker
    && r.value.1.plan == x.plan && r.value.1.iterationCount == x.iterationCount
    && |r.value.1.notes| == |x.notes| + 1
  }

  /** From any state with a plan that is not empty, the thinker re-plans. */
  ghost predicate ThinkerReplans(step: Stepper)
    requires Total(step)
  {
    forall x: State {:trigger step(Thinker, x)} :: x.plan.fullBlueprint != Some([]) ==> Replanned(x, step(Thinker, x))
  }

  /** From any planning state, the analyst sends the plan back. */
  ghost predicate AnalystSendsBack(step: Stepper)
    requires Total(step)
  {
    forall x: State {:trigger step(Analyst, x)} :: x.status == Planning ==> SentBack(x, step(Analyst, x))
  }

  /** An executor whose thinker always re-plans and whose analyst always sends back runs out of budget, one round per two steps. */
  lemma {:induction false} AlternationSpendsBudget(step: Stepper, s: State, budget: nat)
    requires Total(step) && ThinkerReplans(step) && AnalystSendsBack(step)
    requires s.plan.fullBlueprint != Some([])
    ensures Execute(step, Thinker, s, budget).LimitExceeded?
    ensures Execute(step, Thinker, s, budget).state.iterationCount == s.iterationCount + (budget + 1) / 2
    ensures |Execute(step, Thinker, s, budget).state.notes| == |s.notes| + budget
    decreases budget
  {
    var r := Execute(step, Thinker, s, budget);
    if budget == 0 {
      assert r == LimitExceeded(s);
    } else {
      assert Replanned(s, step(Thinker, s));
      var s1 := step(Thinker, s).value.1;
      assert r == Execute(step, Analyst, s1, budget - 1);
      if budget == 1 {
        assert r == LimitExceeded(s1);
      } else {
        assert SentBack(s1, step(Analyst, s1));
        var s2 := step(Analyst, s1).value.1;
        AlternationSpendsBudget(step, s2, budget - 2);
        var rest := Execute(step, Thinker, s2, budget - 2);
        assert Execute(step, Analyst, s1, budget - 1) == rest;
        assert r.state.iterationCount == s2.iterationCount + (budget - 1) / 2;
        assert (budget + 1) / 2 == (budget - 1) / 2 + 1;
      }
    }
  }

  /** Under never-empty drafts, the thinker always re-plans. */
  lemma ThinkerReplansUnder(o: Oracles)
    requires DraftsNeverEmpty(o)
    ensures ThinkerReplans(Step(o))
  {
    forall x: State | x.plan.fullBlueprint != Some([])
      ensures Replanned(x, Step(o)(Thinker, x))
    {
      var plan := T.NextPlan(x, o);
      assert plan.fullBlueprint != Some([]) by {
        match o.draftPlan(T.PlanRequestOf(x, o))
        case Malformed =>
        case Draft(p) => T.NormalisedKeepsLevelCount(p);
      }
      var x1 := Apply(x, T.Thinker(x, o).value);
      assert StepOnce(Thinker, x, o) == Ok((Analyst, x1));
      assert x1.status == Planning && x1.plan == plan;
      assert Step(o)(Thinker, x) == StepOnce(Thinker, x, o);
    }
  }

  /** Under a never-satisfied auditor, the analyst always sends a plan back. */
  lemma AnalystSendsBackUnder(o: Oracles)
    requires NeverSatisfied(o)
    ensures AnalystSendsBack(Step(o))
  {
    forall x: State | x.status == Planning
      ensures SentBack(x, Step(o)(Analyst, x))
    {
      var reply := o.auditPlan(A.AuditRequestOf(x));
      assert reply.Reply? && !Contains(reply.decision, "Satisfied");
      var x2 := Apply(x, A.Analyst(x, o).value);
      assert x2.route == Some(Recontextualize);
      assert StepOnce(Analyst, x, o) == Ok((Thinker, x2));
      assert Step(o)(Analyst, x) == StepOnce(Analyst, x, o);
    }
  }

  /** Under a never-satisfied auditor, thinker and analyst alternate until the step budget is spent. */
  lemma RepairLoopSpendsBudget(s: State, o: Oracles, budget: nat)
    requires DraftsNeverEmpty(o) && NeverSatisfied(o)
    requires s.plan.fullBlueprint != Some([])
    ensures Run(Thinker, s, o, budget).LimitExceeded?
    ensures Run(Thinker, s, o, budget).state.iterationCount == s.iterationCount + (budget + 1) / 2
    ensures |Run(Thinker, s, o, budget).state.notes| == |s.notes| + budget
  {
    ThinkerReplansUnder(o);
    AnalystSendsBackUnder(o);
    AlternationSpendsBudget(Step(o), s, budget);
  }

  /** From the start, a never-satisfied auditor ends the run at the recursion limit after 25 planning rounds. */
  lemma NeverSatisfiedAuditorHitsTheLimit(question: string, o: Oracles)
    requires DraftsNeverEmpty(o) && NeverSatisfied(o)
    ensures Answer(question, o).LimitExceeded?
    ensures Answer(question, o).state.iterationCount == 25
  {
    RepairLoopSpendsBudget(Initial(question), o, RecursionLimit);
  }

  /**
   * The orchestrator's finalize route is never read: past the last level it
   * is followed by the act node, which fails on the level lookup.
   */
  lemma {:induction false} FinalizeFromOrchestratorCrashes(s: State, o: Oracles, budget: nat)
    requires s.hIndex >= |Levels(s.plan)| && budget >= 2
    ensures Run(Orchestrator, s, o, budget).Crashed?
    ensures Run(Orchestrator, s, o, budget).fault ==
      (if s.plan.fullBlueprint.None? then NoBlueprint else LevelIndexOutOfRange)
  {
    var s1 := Apply(s, O.Orchestrator(s, o).value);
    assert StepOnce(Orchestrator, s, o) == Ok((Act, s1));
    RunContinues(Orchestrator, s, o, budget, Act, s1);
    assert s1.plan == s.plan && s1.hIndex == s.hIndex;
    var f := if s.plan.fullBlueprint.None? then NoBlueprint else LevelIndexOutOfRange;
    assert StepOnce(Act, s1, o) == Err((f, s1));
    RunCrashes(Act, s1, o, budget - 1, f, s1);
  }

  /** An approved plan without `Full_Blueprint` ends the run in the act node. */
  lemma ApprovedPlanWithoutLevelsCrashes(s: State, o: Oracles, budget: nat)
    requires s.status == Planning && s.plan.fullBlueprint.None? && budget >= 3
    requires o.auditPlan(A.AuditRequestOf(s)).Reply?
    requires Contains(o.auditPlan(A.AuditRequestOf(s)).decision, "Satisfied")
    ensures Run(Analyst, s, o, budget) == Crashed(NoBlueprint, Run(Analyst, s, o, budget).state)
  {
    var s1 := Apply(s, A.Analyst(s, o).value);
    assert StepOnce(Analyst, s, o) == Ok((Orchestrator, s1));
    RunContinues(Analyst, s, o, budget, Orchestrator, s1);
    FinalizeFromOrchestratorCrashes(s1, o, budget - 1);
  }

  /** A failed step sends the run back to the thinker, which restarts the drill-down at the first level. */
  lemma FailureRestartsAtFirstLevel(s: State, o: Oracles)
    requires s.status != Planning && s.consolidated != []
    requires A.FirstFailure(s.consolidated[|s.consolidated| - 1]).Some?
    requires T.Thinker(Apply(s, A.Analyst(s, o).value), o).Ok?
    ensures StepOnce(Analyst, s, o).Ok? && StepOnce(Analyst, s, o).value.0 == Thinker
    ensures StepOnce(Thinker, StepOnce(Analyst, s, o).value.1, o).Ok?
    ensures StepOnce(Thinker, StepOnce(Analyst, s, o).value.1, o).value.1.hIndex == 0
  {
  }
}

=== FILE: orchestrator.dfy ===
/**
 * The orchestrator node: guards the level cursor, then resolves the target
 * table of every step of the current level and hands the steps on as work
 * items. The steps are rewritten in place, and they are the same records
 * the stored plan holds, so the plan sees the rewrite too.
 */
module OrchestratorNode {
  import opened Wrappers
  import opened Schema
  import opened Blueprint
  import opened AgentState
  import opened Services

  /** The table for a step that names none: the level's own table, else the level map, else the fallback. */
  function DefaultTable(level: Level): (t: string)
    ensures t != ""
    ensures level.levelTable != "" ==> t == level.levelTable
    ensures level.levelTable == "" && LevelName(level) in LevelTables ==> t == LevelTables[LevelName(level)]
    ensures level.levelTable == "" && LevelName(level) !in LevelTables ==> t == FallbackTable
  {
    if level.levelTable != "" then level.levelTable
    else if LevelName(level) in LevelTables then LevelTables[LevelName(level)]
    else FallbackTable
  }

  /** A step is a correlation join when it already targets the join sentinel or its level is the correlation level. */
  predicate IsJoinStep(level: Level, step: Step) {
    step.targetTable == JoinMultiple || LevelName(level) == "Correlation"
  }

  /** One step's resolution, in the code's order. */
  function ResolvedStep(level: Level, step: Step): (r: Step)
    ensures r.targetTable != ""
    ensures r.stepId == step.stepId && r.logic == step.logic
    ensures IsJoinStep(level, step) ==> r.targetTable == JoinMultiple && r.sourceTables == CorrelationSources
    ensures !IsJoinStep(level, step) && step.targetTable != "" ==> r == step
    ensures !IsJoinStep(level, step) && step.targetTable == "" ==> r == step.(targetTable := DefaultTable(level))
  {
    if IsJoinStep(level, step) then step.(targetTable := JoinMultiple, sourceTables := CorrelationSources)
    else if step.targetTable == "" then step.(targetTable := DefaultTable(level))
    else step
  }

  function ResolvedSteps(level: Level): (steps: seq<Step>)
    ensures |steps| == |level.steps|
    ensures forall j :: 0 <= j < |steps| ==> steps[j] == ResolvedStep(level, level.steps[j])
  {
    seq(|level.steps|, j requires 0 <= j < |level.steps| => ResolvedStep(level, level.steps[j]))
  }

  /** The resolution loop as the code runs it, rewriting one step after another. */
  method ResolveWorkItems(level: Level) returns (steps: seq<Step>)
    ensures steps == ResolvedSteps(level)
  {
    var analysisLevel := LevelName(level);
    steps := level.steps;
    var j := 0;
    while j < |steps|
      invariant |steps| == |level.steps| && 0 <= j <= |steps|
      invariant forall m :: 0 <= m < j ==> steps[m] == ResolvedStep(level, level.steps[m])
      invariant forall m :: j <= m < |steps| ==> steps[m] == level.steps[m]
    {
      var step := steps[j];
      if step.targetTable == JoinMultiple || analysisLevel == "Correlation" {
        step := step.(targetTable := JoinMultiple, sourceTables := CorrelationSources);
      } else if step.targetTable == "" {
        var fallback := if level.levelTable != "" then level.levelTable
          else if analysisLevel in LevelTables then LevelTables[analysisLevel]
          else FallbackTable;
        step := step.(targetTable := fallback);
      }
      steps := steps[j := step];
      j := j + 1;
    }
  }

  /** The orchestrator node. */
  function Orchestrator(s: State, o: Oracles): (r: Result<Update, Fault>)
    // Past the last level: "Finalizing" and no work items (the route it sets is never read).
    ensures s.hIndex >= |Levels(s.plan)| ==>
      r == Ok(NoChange.(status := Some(Finalizing), route := Some(Finalize)))
    ensures s.hIndex < |Levels(s.plan)| ==>
      var level := Levels(s.plan)[s.hIndex];
      && (r.Err? <==> level.title.None? || level.steps == [])
      && (r.Ok? ==>
        && r.value.status == Some(Executing)
        && r.value.workItems == Some(ResolvedSteps(level))
        && (forall j :: 0 <= j < |level.steps| ==>
              && r.value.workItems.value[j].targetTable != ""
              && r.value.workItems.value[j].stepId == level.steps[j].stepId)
        && r.value.plan == Some(WithSteps(s.plan, s.hIndex, r.value.workItems.value))
        && r.value.notes == [Preparing(|level.steps|, LevelName(level),
             ResolvedStep(level, level.steps[|level.steps| - 1]).targetTable)]
        && r.value.route.None? && r.value.hIndex.None?)
  {
    var levels := Levels(s.plan);
    var idx := s.hIndex;
    if idx >= |levels| then
      Ok(NoChange.(status := Some(Finalizing), route := Some(Finalize)))
    else
      var level := levels[idx];
      if level.title.None? then Err(MissingTitle)
      else
        var steps := ResolvedSteps(level);
        if steps == [] then Err(NoStepBound)
        else
          Ok(NoChange.(
            plan := Some(WithSteps(s.plan, idx, steps)),
            workItems := Some(steps),
            status := Some(Executing),
            notes := [Preparing(|steps|, LevelName(level), steps[|steps| - 1].targetTable)]))
  }
}

=== FILE: schema.dfy ===
/**
 * The fixed tables of the analysis: the live schema map, the level-to-table
 * map the orchestrator falls back on, and the constants the thinker and the
 * orchestrator force onto correlation steps.
 */
module Schema {
  import opened Wrappers

  const RegionTable := "agg_region_performance"
  const VendorTable := "agg_vendor_performance"
  const AgentTable := "agg_agent_performance"
  const CategoryTable := "agg_category_performance"
  const SalesTenureTable := "agg_sales_tenure_performance"

  /** The sentinel target meaning "a join of several tables". */
  const JoinMultiple := "JOIN_MULTIPLE"

  /** The logic text the thinker writes into every correlation step. */
  const CorrelationLogic := "Multivariate JOIN on Quarter. Correlate Sales, Sentiment, and Tenure."

  /** The pair of tables every correlation work item is joined from. */
  const CorrelationSources: seq<string> := [SalesTenureTable, AgentTable]

  /** The table used when neither the level nor the level map names one. */
  const FallbackTable := RegionTable

  /** Table name to ordered column names. */
  const LiveSchema: map<string, seq<string>> := map[
    VendorTable := ["Quarter", "Vendor_Name", "Region", "Category",
                    "CurrentQuarter_whole_frequency", "CurrentQuarter_Sentiment_Shift"],
    RegionTable := ["Quarter", "Region", "CurrentQuarter_whole_frequency", "CurrentQuarter_Sentiment_Shift"],
    AgentTable := ["Quarter", "Agent_Name", "Vendor_Name",
                   "CurrentQuarter_whole_frequency", "CurrentQuarter_Sentiment_Shift"],
    CategoryTable := ["Quarter", "Category", "CurrentQuarter_whole_frequency", "CurrentQuarter_Sentiment_Shift"],
    SalesTenureTable := ["Quarter", "Vendor_Name", "Operating_Region", "Total_Sales_Volume", "Quality_Score_%",
                         "AHT_Seconds", "Active_Staffing_%", "Average_Tenure_Months", "Attrition_Rate_%",
                         "QoQ_Total_Sales_Volume", "QoQ_Quality_Score_%", "QoQ_AHT_Seconds",
                         "QoQ_Active_Staffing_%", "QoQ_Average_Tenure_Months", "QoQ_Attrition_Rate_%"]
  ]

  /** The orchestrator's analysis-level to default-table map. */
  const LevelTables: map<string, string> := map[
    "Global" := RegionTable,
    "Region" := RegionTable,
    "Vendor" := VendorTable,
    "Category" := CategoryTable,
    "Agent" := AgentTable,
    "Correlation" := JoinMultiple
  ]

  /** `LIVE_SCHEMA.get(table)`. */
  function ColumnsOf(table: string): Option<seq<string>> {
    if table in LiveSchema then Some(LiveSchema[table]) else None
  }
}

=== FILE: services.dfy ===
/**
 * The two external services the nodes call, as functions given to the run:
 * the text generator (which answers each node's prompt) and the query
 * engine (which runs SQL). Each request carries the inputs the code puts
 * into its prompt; the prompt wording itself is not modelled.
 */
module Services {
  import opened Wrappers
  import opened Blueprint
  import opened Evidence
  import opened AgentState

  /** The current and previous quarter, as `get_latest_quarters` returns them. */
  datatype Quarters = Quarters(current: string, previous: string)

  /** The thinker's `last_error`: the latest working note, or "Initial Request". */
  datatype Feedback = InitialRequest | LastNote(note: Note)

  datatype PlanRequest = PlanRequest(question: string, quarters: Quarters, lastError: Feedback)

  /**
   * The thinker's generated blueprint: `Malformed` when parsing it or walking
   * its levels raises (not JSON, not an object, a level or step that is not an object).
   */
  datatype PlanDraft = Malformed | Draft(plan: Plan)

  datatype AuditRequest = AuditRequest(question: string, numLevels: nat, planStartLevel: string, plan: Plan)

  /** The plan audit's JSON reply; `Unparsable` when `json.loads` or `.get` raises. */
  datatype AuditReply = Unparsable | Reply(decision: string, feedback: string)

  datatype LevelReportRequest = LevelReportRequest(title: Option<string>, grain: Option<string>, data: seq<Summary>)

  /** The schema text put into the SQL prompt. */
  datatype SchemaContext =
    | JoinContext(salesColumns: seq<string>, agentColumns: seq<string>)
    | StrictSchema(lookupKey: string, columns: Option<seq<string>>)

  datatype SqlRequest = SqlRequest(
    stepId: string,
    stepLogic: string,
    targetTable: string,
    schemaContext: SchemaContext,
    quarters: Quarters,
    analysisLevel: string)

  datatype ScienceRequest = ScienceRequest(question: string, researchContext: string)

  datatype DraftRequest = DraftRequest(question: string, scienceInsight: string, context: seq<LevelContext>)

  /**
   * The services one run talks to. `writeSql` fails with the exception's
   * message when the generator call raises; `runQuery` fails with the
   * engine's message.
   */
  datatype Oracles = Oracles(
    quarters: Quarters,
    draftPlan: PlanRequest -> PlanDraft,
    auditPlan: AuditRequest -> AuditReply,
    reportLevel: LevelReportRequest -> string,
    writeSql: SqlRequest -> Result<string, string>,
    runQuery: string -> Result<RowSet, string>,
    weave: ScienceRequest -> string,
    draft: DraftRequest -> string)
}

=== FILE: state.dfy ===
/**
 * The run state threaded through the graph (`AgentState`), the partial
 * record each node returns, and how the graph merges one into the other:
 * `working_notes`, `consolidated_results` and `analyst_summaries` are
 * appended to (their reducer is list concatenation), every other returned
 * key overwrites.
 */
module AgentState {
  import opened Wrappers
  import opened Blueprint
  import opened Evidence

  /** `iteration_status`. */
  datatype Status = Planning | Executing | Finalizing

  /** `_validate_route`, the analyst's routing decision. */
  datatype Route = Recontextualize | Proceed | NextHypothesis | Finalize

  /** The entries of `working_notes`, with the values each message interpolates. */
  datatype Note =
    | Initialized
    | PlanDrafted(startLevel: string)
    | Approved
    | FixingBlueprint(feedback: string)
    | CriticalError(levelNumber: nat, detail: string)
    | LevelSummarised(levelNumber: nat, analysisLevel: Option<string>)
    | FinalLevelSummarised(levelNumber: nat)
    | Preparing(stepCount: nat, levelName: string, lastTarget: string)
    | Consolidated(levelNumber: nat)
    | StoryWoven
    | ReportDelivered

  /** An exception that escapes a node and ends the run. */
  datatype Fault =
    | NoFirstLevel          // `Full_Blueprint` is an empty list when the thinker reads its first level
    | AuditUnparsable       // the plan audit's reply is not a JSON object
    | LevelIndexOutOfRange  // `Full_Blueprint[idx]` with idx past the end
    | NoBlueprint           // `detail_plan['Full_Blueprint']` with the key absent
    | MissingTitle          // `target_h['Hypothesis_Title']` with the key absent
    | NoStepBound           // the orchestrator's note reads `step` after looping over no steps
    | MissingTargetTable    // `None.split('.')` in the act node
    | NonNumericMetric      // sorting or comparing a non-numeric primary metric
    | MissingAnalysisLevel  // `blueprint[i]['Analysis_Level']` with the key absent
    | MissingRoute          // the router reads `_validate_route` before any analyst set it

  datatype State = State(
    question: string,
    plan: Plan,
    hIndex: nat,
    workItems: seq<Step>,
    notes: seq<Note>,
    status: Status,
    iterationCount: nat,
    route: Option<Route>,
    lastActResult: seq<Outcome>,
    consolidated: seq<seq<Summary>>,
    analystSummaries: seq<string>,
    scientistSummary: string,
    draftAnswer: string)

  /** What a node returns: `None` for a key it does not return; appended keys as lists. */
  datatype Update = Update(
    plan: Option<Plan>,
    hIndex: Option<nat>,
    workItems: Option<seq<Step>>,
    notes: seq<Note>,
    status: Option<Status>,
    iterationCount: Option<nat>,
    route: Option<Route>,
    lastActResult: Option<seq<Outcome>>,
    consolidated: seq<seq<Summary>>,
    analystSummaries: seq<string>,
    scientistSummary: Option<string>,
    draftAnswer: Option<string>)

  /** The empty return value `{}`. */
  const NoChange := Update(None, None, None, [], None, None, None, None, [], [], None, None)

  /** The state a run starts from. */
  function Initial(question: string): State {
    State(question, EmptyPlan, 0, [], [Initialized], Planning, 0, None, [], [], [], "", "")
  }

  function Merge<T>(current: T, returned: Option<T>): T {
    returned.GetOr(current)
  }

  /**
   * The graph's merge of a node's return value into the state: the three
   * list keys get exactly the returned entries appended, a returned key
   * overwrites, and a key the node did not return keeps its value.
   */
  function Apply(s: State, u: Update): (t: State)
    ensures Extends(s, t)
    ensures t.notes[|s.notes|..] == u.notes
    ensures t.consolidated[|s.consolidated|..] == u.consolidated
    ensures t.analystSummaries[|s.analystSummaries|..] == u.analystSummaries
  {
    State(
      s.question,
      Merge(s.plan, u.plan),
      Merge(s.hIndex, u.hIndex),
      Merge(s.workItems, u.workItems),
      s.notes + u.notes,
      Merge(s.status, u.status),
      Merge(s.iterationCount, u.iterationCount),
      if u.route.Some? then u.route else s.route,
      Merge(s.lastActResult, u.lastActResult),
      s.consolidated + u.consolidated,
      s.analystSummaries + u.analystSummaries,
      Merge(s.scientistSummary, u.scientistSummary),
      Merge(s.draftAnswer, u.draftAnswer))
  }

  /** The append-only keys of `t` extend those of `s`, and the question is the same. */
  predicate Extends(s: State, t: State) {
    && t.question == s.question
    && s.notes <= t.notes
    && s.consolidated <= t.consolidated
    && s.analystSummaries <= t.analystSummaries
  }

  /** A returned key overwrites; a key the node did not return keeps its value. */
  lemma ApplyOverwrites(s: State, u: Update)
    ensures var t := Apply(s, u);
      && t.plan == (if u.plan.Some? then u.plan.value else s.plan)
      && t.hIndex == (if u.hIndex.Some? then u.hIndex.value else s.hIndex)
      && t.workItems == (if u.workItems.Some? then u.workItems.value else s.workItems)
      && t.status == (if u.status.Some? then u.status.value else s.status)
      && t.iterationCount == (if u.iterationCount.Some? then u.iterationCount.value else s.iterationCount)
      && t.route == (if u.route.Some? then u.route else s.route)
      && t.lastActResult == (if u.lastActResult.Some? then u.lastActResult.value else s.lastActResult)
      && t.scientistSummary == (if u.scientistSummary.Some? then u.scientistSummary.value else s.scientistSummary)
      && t.draftAnswer == (if u.draftAnswer.Some? then u.draftAnswer.value else s.draftAnswer)
  {
  }

  /** Returning `{}` leaves the state as it was. */
  lemma EmptyReturnChangesNothing(s: State)
    ensures Apply(s, NoChange) == s
  {
    assert s.notes + [] == s.notes;
    assert s.consolidated + [] == s.consolidated;
    assert s.analystSummaries + [] == s.analystSummaries;
  }

  /** Extension is transitive, so it carries over a whole run. */
  lemma ExtendsTransitive(s: State, t: State, r: State)
    requires Extends(s, t) && Extends(t, r)
    ensures Extends(s, r)
  {
  }
}

=== FILE: synthesis.dfy ===
/**
 * The two closing nodes. The scientist numbers the analyst's level reports
 * as chapters and has the text generator weave them into one story. The
 * drafter gives the generator that story plus a structured digest of the
 * vault, then scrubs step and level labels from the generated report.
 */
module SynthesisNodes {
  import opened Wrappers
  import opened Text
  import opened Blueprint
  import opened Evidence
  import opened AgentState
  import opened Services

  // ---------------------------------------------------------------------------
  // The scientist.

  const ChapterSeparator := "\n\n"

  /** The heading and body of the chapter at 0-based position `i`. */
  function Chapter(i: nat, report: string): string {
    "### FORENSIC CHAPTER " + NatToString(i + 1) + ":\n" + report
  }

  function ChapterList(reports: seq<string>): (cs: seq<string>)
    ensures |cs| == |reports|
    ensures forall i :: 0 <= i < |reports| ==> cs[i] == Chapter(i, reports[i])
  {
    seq(|reports|, i requires 0 <= i < |reports| => Chapter(i, reports[i]))
  }

  /** The research context: every report as a numbered chapter, separated by blank lines. */
  function Chapters(reports: seq<string>): (text: string)
    ensures reports != [] ==> Chapter(0, reports[0]) <= text
    ensures reports != [] ==>
      var last := Chapter(|reports| - 1, reports[|reports| - 1]);
      |last| <= |text| && text[|text| - |last|..] == last
  {
    var parts := ChapterList(reports);
    if parts == [] then Join(ChapterSeparator, parts)
    else
      JoinEnds(ChapterSeparator, parts);
      Join(ChapterSeparator, parts)
  }

  /**
   * Reports only ever get appended, so a later context extends an earlier
   * one: the chapters already written keep their numbers and text.
   */
  lemma ChaptersExtend(reports: seq<string>, r: string)
    ensures reports == [] ==> Chapters(reports + [r]) == Chapter(0, r)
    ensures reports != [] ==> Chapters(reports + [r]) == Chapters(reports) + ChapterSeparator + Chapter(|reports|, r)
  {
    var parts := ChapterList(reports + [r]);
    assert parts[..|reports|] == ChapterList(reports);
  }

  lemma {:induction false} ChaptersCount(reports: seq<string>)
    ensures reports == [] <==> Chapters(reports) == []
    decreases |reports|
  {
    if reports != [] {
      var n := |reports| - 1;
      assert reports == reports[..n] + [reports[n]];
      ChaptersExtend(reports[..n], reports[n]);
    }
  }

  /**
   * The scientist node: the story woven from the chaptered reports is both
   * the scientist's summary and the provisional answer, and the run enters
   * its final phase; the reports, the vault and the plan are left as they are.
   */
  function Scientist(s: State, o: Oracles): (r: Result<Update, Fault>)
    ensures r.Ok?
    ensures r.value.scientistSummary.Some? && r.value.draftAnswer == r.value.scientistSummary
    ensures r.value.scientistSummary.value == o.weave(ScienceRequest(s.question, Chapters(s.analystSummaries)))
    ensures r.value.status == Some(Finalizing) && r.value.notes == [StoryWoven]
    ensures r.value.analystSummaries == [] && r.value.consolidated == [] && r.value.plan.None?
    ensures r.value.route.None? && r.value.hIndex.None?
  {
    var story := o.weave(ScienceRequest(s.question, Chapters(s.analystSummaries)));
    Ok(NoChange.(
      scientistSummary := Some(story),
      draftAnswer := Some(story),
      notes := [StoryWoven],
      status := Some(Finalizing)))
  }

  // ---------------------------------------------------------------------------
  // The drafter's context.

  const Unknown := "Unknown"

  /**
   * The finding of one vault entry: every successful step yields one, read
   * with defaults, since no summary carries a period and the correlation is
   * looked up under a key the consolidator never writes.
   */
  function FindingOf(sm: Summary): (f: Option<Finding>)
    ensures f.None? <==> sm.FailedStep?
    ensures f.Some? ==> f.value.period == Unknown && f.value.correlation == []
    ensures sm.Insights? ==> f.value.dimension == sm.stats.dimensionName
    // A distribution hands its averages and raw outliers on unchanged.
    ensures sm.Insights? && sm.stats.Distribution? ==>
      && f.value.averages == sm.stats.globalAverages
      && f.value.topOutliers == sm.stats.topOutliers
      && f.value.bottomOutliers == sm.stats.bottomOutliers
    // An empty result or a correlation record hands on no averages and no outliers.
    ensures sm.NoRows? || (sm.Insights? && sm.stats.Correlation?) ==>
      f.value.averages == [] && f.value.topOutliers == [] && f.value.bottomOutliers == []
    ensures sm.NoRows? ==> f.value.dimension == Unknown
  {
    match sm
    case FailedStep(_, _) => None
    case NoRows(_) => Some(Finding(Unknown, Unknown, [], [], [], []))
    case Insights(_, Correlation(dim, _)) => Some(Finding(Unknown, dim, [], [], [], []))
    case Insights(_, Distribution(dim, avg, top, bottom, _)) => Some(Finding(Unknown, dim, avg, top, bottom, []))
  }

  function Findings(layer: seq<Summary>): (fs: seq<Finding>)
    ensures |fs| <= |layer|
    ensures fs == [] <==> forall j :: 0 <= j < |layer| ==> layer[j].FailedStep?
    ensures forall m :: 0 <= m < |fs| ==> fs[m].period == Unknown && fs[m].correlation == []
    decreases |layer|
  {
    if layer == [] then []
    else
      var n := |layer| - 1;
      var rest := Findings(layer[..n]);
      match FindingOf(layer[n])
      case None => rest
      case Some(f) => rest + [f]
  }

  /** The findings of a layer extended by one summary: that summary's finding, if any, comes last. */
  lemma FindingsAppend(layer: seq<Summary>, sm: Summary)
    ensures Findings(layer + [sm]) ==
      Findings(layer) + (if FindingOf(sm).Some? then [FindingOf(sm).value] else [])
  {
    assert (layer + [sm])[..|layer|] == layer;
  }

  /** The label of vault layer `i`: the plan's level name, or "Level i+1" past the plan's end. */
  function LabelOf(levels: seq<Level>, i: nat): (r: Result<LevelLabel, Fault>)
    ensures r.Err? <==> i < |levels| && levels[i].analysisLevel.None?
    ensures r.Ok? && i < |levels| ==> r.value == Named(levels[i].analysisLevel.value)
    ensures i >= |levels| ==> r == Ok(Numbered(i + 1))
  {
    if i < |levels| then
      match levels[i].analysisLevel
      case Some(name) => Ok(Named(name))
      case None => Err(MissingAnalysisLevel)
    else Ok(Numbered(i + 1))
  }

  /** Some layer's plan level has no `Analysis_Level`. */
  predicate SomeLabelMissing(vault: seq<seq<Summary>>, levels: seq<Level>) {
    exists i :: 0 <= i < |vault| && i < |levels| && levels[i].analysisLevel.None?
  }

  function ReportContext(vault: seq<seq<Summary>>, levels: seq<Level>): (r: Result<seq<LevelContext>, Fault>)
    ensures r.Err? <==> SomeLabelMissing(vault, levels)
    ensures r.Ok? ==> |r.value| == |vault|
    ensures r.Ok? ==> forall i :: 0 <= i < |vault| ==>
      r.value[i] == LevelContext(LabelOf(levels, i).value, Findings(vault[i]))
  {
    if SomeLabelMissing(vault, levels) then Err(MissingAnalysisLevel)
    else Ok(seq(|vault|, i requires 0 <= i < |vault| => LevelContext(LabelOf(levels, i).value, Findings(vault[i]))))
  }

  /** The findings of one layer, collected as the code does, appending per successful step. */
  method CollectFindings(layer: seq<Summary>) returns (fs: seq<Finding>)
    ensures fs == Findings(layer)
  {
    fs := [];
    var j := 0;
    while j < |layer|
      invariant 0 <= j <= |layer|
      invariant fs == Findings(layer[..j])
    {
      assert layer[..j + 1][..j] == layer[..j];
      var f := FindingOf(layer[j]);
      if f.Some? {
        fs := fs + [f.value];
      }
      j := j + 1;
    }
    assert layer[..j] == layer;
  }

  /** The context loop as the code runs it, one entry per vault layer. */
  method BuildContext(vault: seq<seq<Summary>>, levels: seq<Level>) returns (r: Result<seq<LevelContext>, Fault>)
    ensures r == ReportContext(vault, levels)
  {
    var context: seq<LevelContext> := [];
    var i := 0;
    while i < |vault|
      invariant 0 <= i <= |vault| && |context| == i
      invariant forall m :: 0 <= m < i ==> m >= |levels| || levels[m].analysisLevel.Some?
      invariant forall m :: 0 <= m < i ==> context[m] == LevelContext(LabelOf(levels, m).value, Findings(vault[m]))
    {
      var tier: LevelLabel;
      if i < |levels| {
        if levels[i].analysisLevel.None? {
          return Err(MissingAnalysisLevel);
        }
        tier := Named(levels[i].analysisLevel.value);
      } else {
        tier := Numbered(i + 1);
      }
      var findings := CollectFindings(vault[i]);
      context := context + [LevelContext(tier, findings)];
      i := i + 1;
    }
    assert context == ReportContext(vault, levels).value;
    r := Ok(context);
  }

  /** Whatever the vault holds, the drafter never receives a correlation or a period. */
  lemma CorrelationNeverForwarded(vault: seq<seq<Summary>>, levels: seq<Level>)
    ensures ReportContext(vault, levels).Ok? ==>
      forall i, m :: 0 <= i < |vault| && 0 <= m < |ReportContext(vault, levels).value[i].findings| ==>
        ReportContext(vault, levels).value[i].findings[m].correlation == [] &&
        ReportContext(vault, levels).value[i].findings[m].period == Unknown
  {
  }

  // ---------------------------------------------------------------------------
  // The drafter's scrubbing.

  /** `Step \d\.\d` */
  const StepLabel: Pattern := Literal("Step ") + [Digit, Lit('.'), Digit]
  /** `Level \d` */
  const LevelLabelPattern: Pattern := Literal("Level ") + [Digit]
  const Heading: Pattern := Literal("##")
  const RuledHeading := "---\n##"

  /**
   * Delete step labels, then level labels, then put a rule before every "##".
   * A report without any of them is delivered unchanged.
   */
  function Sanitise(report: string): (r: string)
    ensures !Occurs(report, StepLabel) && !Occurs(report, LevelLabelPattern) && !Occurs(report, Heading) ==>
      r == report
  {
    var unlabelled := SubAll(report, StepLabel, []);
    var unlevelled := SubAll(unlabelled, LevelLabelPattern, []);
    if !Occurs(report, StepLabel) && !Occurs(report, LevelLabelPattern) && !Occurs(report, Heading) then
      AbsentMeansUnchanged(report, StepLabel, []);
      AbsentMeansUnchanged(report, LevelLabelPattern, []);
      AbsentMeansUnchanged(report, Heading, RuledHeading);
      SubAll(unlevelled, Heading, RuledHeading)
    else SubAll(unlevelled, Heading, RuledHeading)
  }

  /** A step label at the front of a report is deleted, whatever follows it. */
  lemma StepLabelDeleted(tag: string, x: string)
    requires |tag| == |StepLabel| && MatchAt(tag, 0, StepLabel)
    ensures Sanitise(tag + x) == Sanitise(x)
  {
    var s := tag + x;
    assert MatchAt(s, 0, StepLabel) by {
      forall k | 0 <= k < |StepLabel|
        ensures Admits(StepLabel[k], s[k])
      {
        assert s[k] == tag[k];
      }
    }
    assert s[|StepLabel|..] == x;
    assert SubAll(s, StepLabel, []) == SubAll(x, StepLabel, []);
  }

  /** "Step 1.2" in front of plain text is deleted and the text is delivered as it was. */
  lemma StepOneTwoDeleted(x: string)
    requires !Occurs(x, StepLabel) && !Occurs(x, LevelLabelPattern) && !Occurs(x, Heading)
    ensures Sanitise("Step 1.2" + x) == x
  {
    var tag := "Step 1.2";
    forall k | 0 <= k < |StepLabel|
      ensures Admits(StepLabel[k], tag[k])
    {
      if k < 5 {
        assert StepLabel[k] == Lit("Step "[k]);
      }
    }
    StepLabelDeleted(tag, x);
  }

  /**
   * A report that names no step and no level only gets a rule before each
   * "##"; one that opens with a heading opens with the rule.
   */
  lemma HeadingsRuled(r: string)
    requires !Occurs(r, StepLabel) && !Occurs(r, LevelLabelPattern)
    ensures Sanitise(r) == SubAll(r, Heading, RuledHeading)
    ensures MatchAt(r, 0, Heading) ==>
      Sanitise(r) == RuledHeading + SubAll(r[|Heading|..], Heading, RuledHeading)
  {
    AbsentMeansUnchanged(r, StepLabel, []);
    AbsentMeansUnchanged(r, LevelLabelPattern, []);
  }

  /** Neither label starts with '#', so prefixing '#' to a text without labels creates none. */
  lemma HashAddsNoLabel(t: string)
    requires !Occurs(t, StepLabel) && !Occurs(t, LevelLabelPattern)
    ensures !Occurs("#" + t, StepLabel) && !Occurs("#" + t, LevelLabelPattern)
  {
    assert "#" + t == ['#'] + t;
    assert StepLabel[0] == Lit('S') && LevelLabelPattern[0] == Lit('L');
    OccursCons('#', t, StepLabel);
    OccursCons('#', t, LevelLabelPattern);
  }

  /**
   * A heading followed by plain text is delivered with a rule before it:
   * "## Summary" becomes "---\n## Summary".
   */
  lemma HeadingGetsRule(t: string)
    requires !Occurs(t, StepLabel) && !Occurs(t, LevelLabelPattern) && !Occurs(t, Heading)
    ensures Sanitise("##" + t) == RuledHeading + t
  {
    var r := "##" + t;
    HashAddsNoLabel(t);
    HashAddsNoLabel("#" + t);
    assert r == "#" + ("#" + t);
    assert MatchAt(r, 0, Heading) by {
      assert Heading[0] == Lit('#') && Heading[1] == Lit('#');
    }
    HeadingsRuled(r);
    assert r[|Heading|..] == t;
    AbsentMeansUnchanged(t, Heading, RuledHeading);
  }

  const Spliced := "LevLevel 1el 2"

  lemma SplicedHasNoStepLabel()
    ensures !Occurs(Spliced, StepLabel)
  {
    forall i | 0 <= i <= |Spliced| - |StepLabel| ensures !MatchAt(Spliced, i, StepLabel) {
      assert StepLabel[0] == Lit('S');
      assert Spliced[i] != 'S';
    }
  }

  /** "Level d" at the start of `t`. */
  lemma LevelLabelAtStart(t: string)
    requires |t| >= 7 && t[..6] == "Level " && IsDigit(t[6])
    ensures MatchAt(t, 0, LevelLabelPattern)
  {
    var p := LevelLabelPattern;
    forall k | 0 <= k < 7 ensures Admits(p[k], t[k]) {
      if k < 6 {
        assert p[k] == Lit("Level "[k]);
        assert t[k] == t[..6][k];
      }
    }
  }

  lemma SplicedLabelPass(t: string)
    requires t == "Level 1el 2"
    ensures SubAll(t, LevelLabelPattern, []) == "el 2"
  {
    var p := LevelLabelPattern;
    assert t[..6] == "Level ";
    LevelLabelAtStart(t);
    var tail := t[7..];
    assert tail == "el 2";
    AbsentMeansUnchanged(tail, p, []);
  }

  /** A prefix where no match starts is copied; the rest is scrubbed on its own. */
  lemma PrefixCopied(a: string, t: string, s: string, p: Pattern, rest: string)
    requires |p| > 0 && s == a + t
    requires forall i :: 0 <= i < |a| ==> !MatchAt(s, i, p)
    requires SubAll(t, p, []) == rest
    ensures SubAll(s, p, []) == a + rest
  {
    SubAllSkip(a, t, p);
  }

  lemma SplicedJoin()
    ensures "Lev" + "el 2" == "Level 2"
  {
  }

  lemma SplicedLevelSteps(s: string)
    requires s == "LevLevel 1el 2"
    ensures SubAll(s, LevelLabelPattern, []) == "Level 2"
  {
    var p := LevelLabelPattern;
    var t := "Level 1el 2";
    assert s == "Lev" + t;
    assert p[0] == Lit('L') && p[3] == Lit('e');
    forall i | 0 <= i < 3
      ensures !MatchAt(s, i, p)
    {
      if i == 0 {
        assert !Admits(p[3], s[3]);
      } else {
        assert !Admits(p[0], s[i]);
      }
    }
    SplicedLabelPass(t);
    PrefixCopied("Lev", t, s, p, "el 2");
    SplicedJoin();
  }

  lemma SplicedLevelPass()
    ensures SubAll(Spliced, LevelLabelPattern, []) == "Level 2"
  {
    SplicedLevelSteps(Spliced);
  }

  lemma SplicedResultFacts()
    ensures SubAll("Level 2", Heading, RuledHeading) == "Level 2"
    ensures Occurs("Level 2", LevelLabelPattern)
  {
    var r := "Level 2";
    assert !Occurs(r, Heading) by {
      forall i | 0 <= i <= |r| - |Heading| ensures !MatchAt(r, i, Heading) {
        assert Heading[0] == Lit('#');
        assert r[i] != '#';
      }
    }
    AbsentMeansUnchanged(r, Heading, RuledHeading);
    assert r[..6] == "Level ";
    LevelLabelAtStart(r);
  }

  /** Deleting one level label can join its neighbours into another, which survives the scrubbing. */
  lemma ScrubbingCanSpliceALabel()
    ensures Sanitise(Spliced) == "Level 2"
    ensures Occurs(Sanitise(Spliced), LevelLabelPattern)
  {
    SplicedHasNoStepLabel();
    AbsentMeansUnchanged(Spliced, StepLabel, []);
    SplicedLevelPass();
    SplicedResultFacts();
  }

  /** The drafter node. */
  function Drafter(s: State, o: Oracles): (r: Result<Update, Fault>)
    ensures r.Err? <==> SomeLabelMissing(s.consolidated, Levels(s.plan))
    ensures r.Ok? ==>
      var report := o.draft(DraftRequest(s.question, s.scientistSummary, ReportContext(s.consolidated, Levels(s.plan)).value));
      r.value == NoChange.(draftAnswer := Some(Sanitise(report)), notes := [ReportDelivered])
  {
    match ReportContext(s.consolidated, Levels(s.plan))
    case Err(e) => Err(e)
    case Ok(context) =>
      var report := o.draft(DraftRequest(s.question, s.scientistSummary, context));
      Ok(NoChange.(draftAnswer := Some(Sanitise(report)), notes := [ReportDelivered]))
  }
}

=== FILE: text.dfy ===
/**
 * The string operations the pipeline applies to generated text and to table
 * names: substring tests, left-to-right search-and-delete (Python's
 * `str.replace` with a literal and `re.sub` with a fixed-length pattern),
 * whitespace stripping, splitting on a separator, lower-casing and joining.
 */
module Text {

  predicate IsDigit(c: char) { '0' <= c <= '9' }

  /**
   * The ASCII characters Python's `str.strip()` removes: space, tab, line
   * feed, vertical tab, form feed, carriage return, and the four separators
   * 0x1C to 0x1F.
   */
  predicate IsSpace(c: char) {
    || c == ' ' || c == '\t' || c == '\n' || c == '\r' || c == '\U{000B}' || c == '\U{000C}'
    || c == '\U{001C}' || c == '\U{001D}' || c == '\U{001E}' || c == '\U{001F}'
  }

  /** One position of a fixed-length pattern: a literal character or `\d`. */
  datatype Sym = Lit(c: char) | Digit

  type Pattern = seq<Sym>

  predicate Admits(x: Sym, c: char) {
    match x
    case Lit(d) => c == d
    case Digit => IsDigit(c)
  }

  /** The pattern that matches exactly the string `t`. */
  function Literal(t: string): Pattern {
    seq(|t|, k requires 0 <= k < |t| => Lit(t[k]))
  }

  /** `p` matches `s` starting at index `i`. */
  predicate MatchAt(s: string, i: int, p: Pattern) {
    0 <= i && i + |p| <= |s| && forall k :: 0 <= k < |p| ==> Admits(p[k], s[i + k])
  }

  /** `p` matches somewhere in `s`. */
  predicate Occurs(s: string, p: Pattern) {
    exists i :: 0 <= i <= |s| - |p| && MatchAt(s, i, p)
  }

  /** Python's `t in s`. */
  predicate Contains(s: string, t: string) {
    Occurs(s, Literal(t))
  }

  /**
   * Left-to-right, non-overlapping replacement of every match of `p` by `repl`:
   * `s.replace(old, repl)` for a literal `old`, `re.sub(p, repl, s)` for a
   * fixed-length pattern.
   */
  function SubAll(s: string, p: Pattern, repl: string): string
    requires |p| > 0
    decreases |s|
  {
    if s == [] then []
    else if MatchAt(s, 0, p) then repl + SubAll(s[|p|..], p, repl)
    else [s[0]] + SubAll(s[1..], p, repl)
  }

  /** The number of matches `SubAll` replaces. */
  function Hits(s: string, p: Pattern): nat
    requires |p| > 0
    decreases |s|
  {
    if s == [] then 0
    else if MatchAt(s, 0, p) then 1 + Hits(s[|p|..], p)
    else Hits(s[1..], p)
  }

  lemma MatchAtDrop(s: string, d: nat, i: int, p: Pattern)
    requires d <= |s| && 0 <= i
    ensures MatchAt(s[d..], i, p) <==> MatchAt(s, i + d, p)
  {
    if MatchAt(s[d..], i, p) {
      forall k | 0 <= k < |p| ensures Admits(p[k], s[i + d + k]) {
        assert s[d..][i + k] == s[i + d + k];
      }
    }
    if MatchAt(s, i + d, p) {
      forall k | 0 <= k < |p| ensures Admits(p[k], s[d..][i + k]) {
        assert s[d..][i + k] == s[i + d + k];
      }
    }
  }

  /** A match in a slice is a match in the whole string. */
  lemma OccursInSlice(s: string, a: nat, b: nat, p: Pattern)
    requires a <= b <= |s|
    ensures Occurs(s[a..b], p) ==> Occurs(s, p)
  {
    if Occurs(s[a..b], p) {
      var i :| 0 <= i <= |s[a..b]| - |p| && MatchAt(s[a..b], i, p);
      forall k | 0 <= k < |p| ensures Admits(p[k], s[i + a + k]) {
        assert s[a..b][i + k] == s[i + a + k];
      }
      assert MatchAt(s, i + a, p);
    }
  }

  /** A match in `[c] + t` is at index 0 or is a match of `t`. */
  lemma OccursCons(c: char, t: string, p: Pattern)
    ensures Occurs([c] + t, p) ==> MatchAt([c] + t, 0, p) || Occurs(t, p)
  {
    var s := [c] + t;
    if Occurs(s, p) {
      var i :| 0 <= i <= |s| - |p| && MatchAt(s, i, p);
      if i > 0 {
        assert s[1..] == t;
        MatchAtDrop(s, 1, i - 1, p);
        assert MatchAt(t, i - 1, p);
      }
    }
  }

  /** A match in `t` is still a match in `x + t`. */
  lemma OccursAppend(x: string, t: string, p: Pattern)
    requires Occurs(t, p)
    ensures Occurs(x + t, p)
  {
    assert (x + t)[|x|..|x + t|] == t;
    OccursInSlice(x + t, |x|, |x + t|, p);
  }

  lemma MulSucc(a: nat, h: nat)
    ensures a * (1 + h) == a + a * h
  {
  }

  /** When no match of `p` starts inside `a`, the scan copies `a` and goes on with `b`. */
  lemma {:induction false} SubAllSkip(a: string, b: string, p: Pattern)
    requires |p| > 0
    requires forall i :: 0 <= i < |a| ==> !MatchAt(a + b, i, p)
    ensures SubAll(a + b, p, []) == a + SubAll(b, p, [])
    decreases |a|
  {
    if a == [] {
      assert a + b == b;
    } else {
      var s := a + b;
      assert !MatchAt(s, 0, p);
      assert s[1..] == a[1..] + b;
      forall i | 0 <= i < |a[1..]|
        ensures !MatchAt(a[1..] + b, i, p)
      {
        MatchAtDrop(s, 1, i, p);
      }
      SubAllSkip(a[1..], b, p);
      assert a == [a[0]] + a[1..];
    }
  }

  /** Removing every match leaves |p| characters fewer per match. */
  lemma {:induction false} RemovalLength(s: string, p: Pattern)
    requires |p| > 0
    ensures |SubAll(s, p, [])| + |p| * Hits(s, p) == |s|
    decreases |s|
  {
    if s == [] {
    } else if MatchAt(s, 0, p) {
      RemovalLength(s[|p|..], p);
      MulSucc(|p|, Hits(s[|p|..], p));
    } else {
      RemovalLength(s[1..], p);
    }
  }

  /** The scan replaces nothing exactly when `p` does not occur at all. */
  lemma {:induction false} HitsZeroIffAbsent(s: string, p: Pattern)
    requires |p| > 0
    ensures Hits(s, p) == 0 <==> !Occurs(s, p)
    decreases |s|
  {
    if s == [] {
    } else if MatchAt(s, 0, p) {
      assert Occurs(s, p);
    } else {
      HitsZeroIffAbsent(s[1..], p);
      assert s == [s[0]] + s[1..];
      if Occurs(s, p) {
        OccursCons(s[0], s[1..], p);
      }
      if Occurs(s[1..], p) {
        OccursAppend([s[0]], s[1..], p);
      }
    }
  }

  /** Where `p` does not occur, replacement changes nothing. */
  lemma {:induction false} AbsentMeansUnchanged(s: string, p: Pattern, repl: string)
    requires |p| > 0
    requires !Occurs(s, p)
    ensures SubAll(s, p, repl) == s
    decreases |s|
  {
    if s != [] {
      assert !MatchAt(s, 0, p);
      assert s == [s[0]] + s[1..];
      if Occurs(s[1..], p) {
        OccursAppend([s[0]], s[1..], p);
      }
      AbsentMeansUnchanged(s[1..], p, repl);
    }
  }

  /** Deleting the matches of `p` leaves `s` unchanged if and only if `p` does not occur in `s`. */
  lemma RemovalIsIdentityIff(s: string, p: Pattern)
    requires |p| > 0
    ensures SubAll(s, p, []) == s <==> !Occurs(s, p)
  {
    RemovalLength(s, p);
    HitsZeroIffAbsent(s, p);
    if !Occurs(s, p) {
      AbsentMeansUnchanged(s, p, []);
    }
  }

  // ---------------------------------------------------------------------------
  // Code fences: deleting "```" left to right leaves no "```" behind.

  const Fence: Pattern := Literal("```")

  lemma FenceFacts()
    ensures |Fence| == 3 && Fence[0] == Fence[1] == Fence[2] == Lit('`')
  {
  }

  lemma {:induction false} FenceFreeStartsWithTick(s: string)
    ensures var r := SubAll(s, Fence, []);
      |r| > 0 && r[0] == '`' ==> |s| > 0 && s[0] == '`'
    decreases |s|
  {
    FenceFacts();
    if s != [] && MatchAt(s, 0, Fence) {
      assert Admits(Fence[0], s[0]);
    }
  }

  lemma {:induction false} FenceFreeStartsWithTwoTicks(s: string)
    ensures var r := SubAll(s, Fence, []);
      |r| > 1 && r[0] == '`' && r[1] == '`' ==> |s| > 1 && s[0] == '`' && s[1] == '`'
    decreases |s|
  {
    FenceFacts();
    if s != [] {
      if MatchAt(s, 0, Fence) {
        assert Admits(Fence[0], s[0]) && Admits(Fence[1], s[1]);
      } else {
        var r := SubAll(s, Fence, []);
        assert r == [s[0]] + SubAll(s[1..], Fence, []);
        FenceFreeStartsWithTick(s[1..]);
      }
    }
  }

  /** A fence at the head of the output can only come from a fence at the head of the input. */
  lemma LeadingFenceComesFromInput(s: string)
    requires s != [] && !MatchAt(s, 0, Fence)
    ensures !MatchAt([s[0]] + SubAll(s[1..], Fence, []), 0, Fence)
  {
    FenceFacts();
    var r := SubAll(s[1..], Fence, []);
    var u := [s[0]] + r;
    FenceFreeStartsWithTwoTicks(s[1..]);
    if |s| > 2 {
      assert s[1..][0] == s[1] && s[1..][1] == s[2];
    }
    if |u| > 2 {
      assert u[0] == s[0] && u[1] == r[0] && u[2] == r[1];
    }
  }

  /** After `.replace("```", "")` no "```" is left in the text. */
  lemma {:induction false} NoFenceAfterRemoval(s: string)
    ensures !Occurs(SubAll(s, Fence, []), Fence)
    decreases |s|
  {
    FenceFacts();
    if s == [] {
    } else if MatchAt(s, 0, Fence) {
      assert SubAll(s, Fence, []) == SubAll(s[3..], Fence, []);
      NoFenceAfterRemoval(s[3..]);
    } else {
      var t := SubAll(s[1..], Fence, []);
      NoFenceAfterRemoval(s[1..]);
      assert SubAll(s, Fence, []) == [s[0]] + t;
      LeadingFenceComesFromInput(s);
      OccursCons(s[0], t, Fence);
    }
  }

  // ---------------------------------------------------------------------------
  // Stripping whitespace.

  function StripStart(s: string): (r: string)
    ensures |r| <= |s| && r == s[|s| - |r|..]
    ensures |r| > 0 ==> !IsSpace(r[0])
    ensures forall k :: 0 <= k < |s| - |r| ==> IsSpace(s[k])
  {
    if |s| > 0 && IsSpace(s[0]) then StripStart(s[1..]) else s
  }

  function StripEnd(s: string): (r: string)
    ensures |r| <= |s| && r == s[..|r|]
    ensures |r| > 0 ==> !IsSpace(r[|r| - 1])
    ensures forall k :: |r| <= k < |s| ==> IsSpace(s[k])
  {
    if |s| > 0 && IsSpace(s[|s| - 1]) then StripEnd(s[..|s| - 1]) else s
  }

  /** Python's `s.strip()`: a slice of `s` with no whitespace at either end. */
  function Strip(s: string): (r: string)
    ensures |r| <= |s|
    ensures |r| > 0 ==> !IsSpace(r[0]) && !IsSpace(r[|r| - 1])
  {
    StripEnd(StripStart(s))
  }

  /** One line break on either side of a trimmed text is stripped away. */
  lemma StripFramed(x: string)
    requires x != [] && !IsSpace(x[0]) && !IsSpace(x[|x| - 1])
    ensures Strip("\n" + x + "\n") == x
  {
    var s := "\n" + x + "\n";
    assert s[1..] == x + "\n";
    assert StripStart(s) == StripStart(x + "\n");
    assert StripStart(x + "\n") == x + "\n";
    assert (x + "\n")[..|x|] == x;
    assert StripEnd(x + "\n") == StripEnd(x);
  }

  /** Stripping cuts a slice out of `s`, so it cannot create a match. */
  lemma StripKeepsAbsence(s: string, p: Pattern)
    requires !Occurs(s, p)
    ensures !Occurs(Strip(s), p)
  {
    var t := StripStart(s);
    var r := StripEnd(t);
    var a := |s| - |t|;
    assert r == s[a..a + |r|];
    OccursInSlice(s, a, a + |r|, p);
  }

  // ---------------------------------------------------------------------------
  // Splitting, filtering, case and joining.

  /** `s.split(sep)[-1]`: the text after the last `sep`, or all of `s`. */
  function AfterLast(s: string, sep: char): (r: string)
    ensures sep !in r
    ensures sep !in s ==> r == s
    ensures |r| <= |s| && r == s[|s| - |r|..]
    ensures |r| < |s| ==> s[|s| - |r| - 1] == sep
  {
    if s == [] then []
    else if s[|s| - 1] == sep then []
    else AfterLast(s[..|s| - 1], sep) + [s[|s| - 1]]
  }

  /** `s.replace(c, "")` for a single character. */
  function Without(s: string, c: char): (r: string)
    ensures c !in r
    ensures forall x :: x in r <==> x in s && x != c
  {
    if s == [] then [] else (if s[0] == c then [] else [s[0]]) + Without(s[1..], c)
  }

  /** ASCII part of Python's `str.lower()`. */
  function Lower(s: string): (r: string)
    ensures |r| == |s|
    ensures forall k :: 0 <= k < |s| ==> ('A' <= s[k] <= 'Z' ==> r[k] as int == s[k] as int + 32)
    ensures forall k :: 0 <= k < |s| ==> (!('A' <= s[k] <= 'Z') ==> r[k] == s[k])
  {
    seq(|s|, k requires 0 <= k < |s| =>
      if 'A' <= s[k] <= 'Z' then (s[k] as int + 32) as char else s[k])
  }

  /** `sep.join(parts)`. */
  function Join(sep: string, parts: seq<string>): string {
    if parts == [] then []
    else if |parts| == 1 then parts[0]
    else Join(sep, parts[..|parts| - 1]) + sep + parts[|parts| - 1]
  }

  /** The joined text begins with the first part and ends with the last. */
  lemma {:induction false} JoinEnds(sep: string, parts: seq<string>)
    requires parts != []
    ensures parts[0] <= Join(sep, parts)
    ensures |parts[|parts| - 1]| <= |Join(sep, parts)|
    ensures Join(sep, parts)[|Join(sep, parts)| - |parts[|parts| - 1]|..] == parts[|parts| - 1]
    decreases |parts|
  {
    if |parts| > 1 {
      var init := parts[..|parts| - 1];
      JoinEnds(sep, init);
      assert init[0] == parts[0];
      var j := Join(sep, init) + sep + parts[|parts| - 1];
      assert Join(sep, parts) == j;
      assert j[..|Join(sep, init)|] == Join(sep, init);
    }
  }

  /** The decimal text of a natural number, as `str(n)` gives it. */
  function NatToString(n: nat): (r: string)
    ensures |r| > 0 && forall k :: 0 <= k < |r| ==> IsDigit(r[k])
  {
    var d := ['0' + (n % 10) as char];
    if n < 10 then d else NatToString(n / 10) + d
  }
}

=== FILE: thinker.dfy ===
/**
 * The thinker node: asks the text generator for a blueprint, forces the
 * category and correlation levels onto their tables (the "loop-breaker"),
 * falls back to the current plan when the reply cannot be used, and starts
 * a new planning round.
 */
module ThinkerNode {
  import opened Wrappers
  import opened Schema
  import opened Blueprint
  import opened AgentState
  import opened Services

  /** The loop-breaker's effect on one level. */
  function NormalisedLevel(l: Level): (n: Level)
    ensures n.title == l.title && n.analysisLevel == l.analysisLevel && n.levelTable == l.levelTable
    ensures |n.steps| == |l.steps|
    ensures l.analysisLevel == Some("Category") ==>
      forall j :: 0 <= j < |l.steps| ==> n.steps[j] == l.steps[j].(targetTable := CategoryTable)
    ensures l.analysisLevel == Some("Correlation") ==>
      forall j :: 0 <= j < |l.steps| ==>
        n.steps[j] == l.steps[j].(logic := CorrelationLogic, targetTable := JoinMultiple)
    ensures l.analysisLevel != Some("Category") && l.analysisLevel != Some("Correlation") ==> n == l
  {
    if l.analysisLevel == Some("Category") then
      l.(steps := seq(|l.steps|, j requires 0 <= j < |l.steps| => l.steps[j].(targetTable := CategoryTable)))
    else if l.analysisLevel == Some("Correlation") then
      l.(steps := seq(|l.steps|, j requires 0 <= j < |l.steps| =>
        l.steps[j].(logic := CorrelationLogic, targetTable := JoinMultiple)))
    else l
  }

  function NormalisedLevels(ls: seq<Level>): (ns: seq<Level>)
    ensures |ns| == |ls|
    ensures forall i :: 0 <= i < |ls| ==> ns[i] == NormalisedLevel(ls[i])
  {
    seq(|ls|, i requires 0 <= i < |ls| => NormalisedLevel(ls[i]))
  }

  /** The freshly parsed plan after the loop-breaker; a plan without `Full_Blueprint` is left alone. */
  function Normalised(p: Plan): (q: Plan)
    ensures q.fullBlueprint.None? <==> p.fullBlueprint.None?
    ensures p.fullBlueprint.Some? ==> q.fullBlueprint.value == NormalisedLevels(p.fullBlueprint.value)
  {
    match p.fullBlueprint
    case None => p
    case Some(ls) => Plan(Some(NormalisedLevels(ls)))
  }

  /**
   * The loop-breaker as the code runs it: for each level, rewrite each step
   * of a Category level, then each step of a Correlation level.
   */
  method NormaliseLevels(levels: seq<Level>) returns (out: seq<Level>)
    ensures out == NormalisedLevels(levels)
  {
    out := levels;
    var i := 0;
    while i < |out|
      invariant |out| == |levels| && 0 <= i <= |out|
      invariant forall k :: 0 <= k < i ==> out[k] == NormalisedLevel(levels[k])
      invariant forall k :: i <= k < |out| ==> out[k] == levels[k]
    {
      var h := out[i];
      if h.analysisLevel == Some("Category") {
        var steps := h.steps;
        var j := 0;
        while j < |steps|
          invariant |steps| == |h.steps| && 0 <= j <= |steps|
          invariant forall m :: 0 <= m < j ==> steps[m] == h.steps[m].(targetTable := CategoryTable)
          invariant forall m :: j <= m < |steps| ==> steps[m] == h.steps[m]
        {
          steps := steps[j := steps[j].(targetTable := CategoryTable)];
          j := j + 1;
        }
        h := h.(steps := steps);
      }
      if h.analysisLevel == Some("Correlation") {
        var steps := h.steps;
        var j := 0;
        while j < |steps|
          invariant |steps| == |h.steps| && 0 <= j <= |steps|
          invariant forall m :: 0 <= m < j ==>
            steps[m] == h.steps[m].(logic := CorrelationLogic, targetTable := JoinMultiple)
          invariant forall m :: j <= m < |steps| ==> steps[m] == h.steps[m]
        {
          steps := steps[j := steps[j].(logic := CorrelationLogic, targetTable := JoinMultiple)];
          j := j + 1;
        }
        h := h.(steps := steps);
      }
      out := out[i := h];
      i := i + 1;
    }
  }

  /** `working_notes[-1]`, or "Initial Request" when there are no notes. */
  function LastFeedback(notes: seq<Note>): (f: Feedback)
    ensures notes == [] ==> f == InitialRequest
    ensures notes != [] ==> f == LastNote(notes[|notes| - 1])
  {
    if notes == [] then InitialRequest else LastNote(notes[|notes| - 1])
  }

  function PlanRequestOf(s: State, o: Oracles): PlanRequest {
    PlanRequest(s.question, o.quarters, LastFeedback(s.notes))
  }

  /** The blueprint the thinker returns: the normalised draft, or the current plan when the draft is unusable. */
  function NextPlan(s: State, o: Oracles): (p: Plan)
    ensures o.draftPlan(PlanRequestOf(s, o)).Malformed? ==> p == s.plan
    ensures o.draftPlan(PlanRequestOf(s, o)).Draft? ==>
      var draft := o.draftPlan(PlanRequestOf(s, o)).plan;
      && (p.fullBlueprint.None? <==> draft.fullBlueprint.None?)
      && (draft.fullBlueprint.Some? ==> p.fullBlueprint.value == NormalisedLevels(draft.fullBlueprint.value))
  {
    match o.draftPlan(PlanRequestOf(s, o))
    case Malformed => s.plan
    case Draft(p) => Normalised(p)
  }

  /** `blueprint.get('Full_Blueprint', [{}])[0].get('Analysis_Level', 'Unknown')`. */
  function StartLevel(p: Plan): (name: string)
    requires p.fullBlueprint != Some([])
    ensures p.fullBlueprint.None? ==> name == "Unknown"
    ensures p.fullBlueprint.Some? ==> name == LevelName(p.fullBlueprint.value[0])
  {
    match p.fullBlueprint
    case None => "Unknown"
    case Some(ls) => LevelName(ls[0])
  }

  /** The thinker node. */
  function Thinker(s: State, o: Oracles): (r: Result<Update, Fault>)
    ensures r.Err? <==> NextPlan(s, o).fullBlueprint == Some([])
    ensures r.Err? ==> r.error == NoFirstLevel
    ensures r.Ok? ==>
      && r.value.plan == Some(NextPlan(s, o))
      && r.value.iterationCount == Some(s.iterationCount + 1)
      && r.value.hIndex == Some(0)
      && r.value.status == Some(Planning)
      && r.value.notes == [PlanDrafted(StartLevel(NextPlan(s, o)))]
      && r.value.route.None? && r.value.workItems.None? && r.value.lastActResult.None?
      && r.value.consolidated == [] && r.value.analystSummaries == []
      && r.value.scientistSummary.None? && r.value.draftAnswer.None?
    ensures o.draftPlan(PlanRequestOf(s, o)).Malformed? ==> NextPlan(s, o) == s.plan
  {
    var plan := NextPlan(s, o);
    if plan.fullBlueprint == Some([]) then Err(NoFirstLevel)
    else
      Ok(NoChange.(
        plan := Some(plan),
        notes := [PlanDrafted(StartLevel(plan))],
        status := Some(Planning),
        hIndex := Some(0),
        iterationCount := Some(s.iterationCount + 1)))
  }

  /** Normalising never empties or fills the level list, so it cannot cause the start-level crash. */
  lemma NormalisedKeepsLevelCount(p: Plan)
    ensures Normalised(p).fullBlueprint == Some([]) <==> p.fullBlueprint == Some([])
  {
  }
}

=== FILE: wrappers.dfy ===
/** Option and Result, used for the source's missing keys and its exceptions. */
module Wrappers {
  datatype Option<+T> = None | Some(value: T) {
    function GetOr(default: T): T {
      match this
      case Some(v) => v
      case None => default
    }
  }

  datatype Result<+T, +E> = Ok(value: T) | Err(error: E)
}
